=== FILE: README.md ===
# bot-bm core, modelled in Dafny

bot-bm watches a public-service booking site for cancelled slots
("desistências") in two agreements ("convênios"): 16 (Niterói) and 18
(Maricá). It logs in with a solved captcha and polls the two categories in
turn. When a slot appears, it tells the Telegram chats that subscribed with
the bot password. This project models the decision logic of that program as
pure Dafny functions and methods over what the outside world returned, and
proves properties of it:

- `Retry`: the generic retry wrapper. It classifies an error message as
  fatal to the browser (close, then re-initialize) and/or as a network error
  (alert the subscribers), and returns the first success or rethrows the
  last error.
- `Login`: one login attempt inside that wrapper. A session link means the
  session is still active. Otherwise up to three counted form submissions
  are made. An iteration that finds no captcha image reloads the page and
  does not count. The wrapper runs it at most three times.
- `Poll`: `processConvenio`, which classifies the services page as
  inconclusive, available or not available.
- `Monitor`: `startMonitoring`/`stopMonitoring` as a state machine over the
  monitor's state (running flag, category, last check, last status). It also
  models the choice of the captcha solver URL.
- `Notification`: the subscriber set. This covers the text commands, the
  menu buttons, the persisted snapshot and the pruning of dead chats while
  notifying.
- `Status`: uptime formatting and the two counters.
- `Env`: validation of the environment variables.
- `Text`: the `includes` and decimal-numeral semantics that the others rely
  on.

Calls into the browser, the file system and the captcha solver are replaced
by parameters: what the call returned, or whether it threw. Telegram is
treated in two ways. A delivery in `sendNotification` is given as its
outcome. The sends inside the command and button handlers are assumed to
succeed (see "Left out"). Timers are dropped. The effects the program performs are returned as a trace of `Effect`
values (close, initialize, notify, save cookies).

## Model

| member | source | states |
|---|---|---|
| Env.ParsePort | src/config/env.ts:36 | a port text parses to a number exactly when it is a run of decimal digits |
| Env.FirstMissing | src/config/env.ts:26-30 | the scan finds nothing iff every key is present (set and non-empty); otherwise it finds a missing key with every earlier key present |
| Env.ValidateEnv | src/config/env.ts:16-41 | validation fails iff some required variable is unset or empty; the error names the first one in list order; on success each required field holds its variable's value, PORT falls back to "3000" and NODE_ENV to "development" |
| Env.PortDefaultsTo3000 | src/config/env.ts:36 | with PORT unset the configured port is the number 3000 |
| Env.PortNumeralRoundTrip | src/config/env.ts:36 | a PORT written as the decimal numeral of n configures port n |
| Status.DecomposeUptime | src/services/status.service.ts:22-25 | hours < 24 and minutes < 60, and days, hours and minutes account for the seconds with fewer than 60 seconds left over |
| Status.DecompositionIsUnique | src/services/status.service.ts:22-25 | any days/hours/minutes/remainder split within those bounds is the one computed |
| Status.FormatUptime | src/services/status.service.ts:22-28 | the text ends with the minutes' unit 'm', and its leading run of digits is followed by 'd' and reads back as the number of whole days |
| Status.FormatUptimeShape | src/services/status.service.ts:27 | the text reads "<days>d <hours>h <minutes>m" with each field the numeral of its component |
| Status.FormatUptimeInjective | src/services/status.service.ts:27 | two uptimes with the same text have the same days, hours and minutes |
| Status.NewStatusService | src/services/status.service.ts:1-8 | a new service starts with both counters at zero and records its start time |
| Status.IncrementChecks | src/services/status.service.ts:30-32 | the check counter grows by one; the services counter and the start time are unchanged |
| Status.IncrementServicesFound | src/services/status.service.ts:34-36 | the services counter grows by one; the check counter and the start time are unchanged |
| Status.CountersCountIncrements | src/services/status.service.ts:30-36 | after any sequence of increments each counter has grown by the number of its own increments and the start time is unchanged |
| Status.CountersAreMonotone | src/services/status.service.ts:30-36 | the counters never decrease |
| MonitorTypes.FlipInvolutive | src/services/monitor.service.ts:315 | switching the category twice gives back the original |
| Retry.Attempts | src/services/monitor.service.ts:56-108 | the attempt loop stops at the first success, which it returns after only failed attempts with their effects as the trace; otherwise it makes every allowed attempt and reports the last error |
| Retry.RetryOperation | src/services/monitor.service.ts:50-109 | it returns iff one of the first maxRetries attempts succeeded, and then it returns the first success after exactly that many invocations; otherwise it makes maxRetries invocations and rethrows the last error (undefined when no attempt ran); the effects are those of the failed attempts, in order |
| Retry.InitializeAsWritten | src/services/monitor.service.ts:76-87 | as written, with every launch failing with the same message, `initialize` either does not return within the nesting bound or answers false, and it never returns with no nesting allowed |
| Retry.FatalLaunchNeverReturnsAsWritten | src/services/monitor.service.ts:76-87 | as written, a launch that always fails with a browser-fatal message (such as "Executable doesn't exist") never lets `initialize` return, at any nesting depth, so `throw lastError` (line 108) is never reached |
| Retry.OtherLaunchFailureGivesUpAsWritten | src/services/monitor.service.ts:56-108 | as written, a launch failure that is not fatal does not nest: the wrapper runs out of attempts and `initialize` answers false |
| Retry.InitializeBounded | src/services/monitor.service.ts:111-226 | with the recovery not re-entering the wrapper, a launch that always fails makes exactly maxRetries attempts, closes and re-initializes once per attempt when the message is fatal (never otherwise), and `initialize` answers false |
| Retry.OneRecoveryPerFatalFailure | src/services/monitor.service.ts:71-87 | the failures produce exactly one close and one re-initialization per browser-fatal failure |
| Retry.OneAlertPerNetworkFailure | src/services/monitor.service.ts:63-66 | the failures produce exactly one alert per network-class failure |
| Retry.AlertsAreConnectionProblems | src/services/monitor.service.ts:92-103 | every alert a retry run sends is a connection-problem notice |
| Login.Classify | src/services/monitor.service.ts:371-453 | a submission is accepted iff the entry page lacks 'Código incorreto', the captcha is shown and the session link appears after submitting; a missing captcha is detected iff the entry page lacks the marker and no captcha is shown |
| Login.CaptchaMissingNeverCounts | src/services/monitor.service.ts:399-405 | iterations that find no captcha image never count toward the three attempts |
| Login.LoginOperation | src/services/monitor.service.ts:339-461 | an active session returns true without trying; otherwise the counted attempts never exceed 3; the result is true iff the last iteration was an accepted submission; it is false iff three attempts were counted; it throws only when the check or a recovery threw; cookies are saved iff the login succeeded; an all-captcha-missing run never ends |
| Login.CheckCookiesAndLogin | src/services/monitor.service.ts:337-466 | the login is confirmed iff one of the three wrapped attempts returned true after only thrown attempts; three throws give false after three invocations, with the trace of those three failures; otherwise the first attempt that returned decides the result, and the trace is that of the failures before it |
| Poll.ClassifyPage | src/services/monitor.service.ts:621-653 | a page with 'Código inválido' is inconclusive; otherwise a slot is available iff the page lacks 'Nenhuma desistência até o momento' |
| Poll.ProcessConvenio | src/services/monitor.service.ts:606-658 | null exactly on a thrown step, an invalid-code page or an available slot whose screenshot failed; the city matches the category; updates are reported iff a slot is available; lastStatus changes only to the "no vacancy" text; notices are sent iff a slot was reported, with a claim-failure notice when the click failed |
| Monitor.InitialState | src/services/monitor.service.ts:43-231 | a new monitor is stopped (line 229), on category 16 (line 43), with no check and no status yet (lines 230-231) |
| Monitor.Iterate | src/services/monitor.service.ts:260-326 | one iteration never changes the running flag; a failed login leaves the state unchanged and performs only the session set-up and login effects; the category switches iff the iteration reaches the end of the body, which happens exactly when the session was usable, login and navigation succeeded and the poll was conclusive (with both screenshots taken when a slot was found); after such a poll lastCheck is the clock reading and the effects start with the set-up and login effects; a found slot then sets the "new service in <city>" status, and the effects are exactly the set-up and login effects, the poll's new-service notice, a claim-failure notice when the click failed, and the loop's "new service in <city>" notice, in that order; a "no vacancy" poll sets that status, and its effects are the set-up and login effects alone |
| Monitor.RunLoop | src/services/monitor.service.ts:259-329 | the loop has been left iff the running flag is false |
| Monitor.CompletedPollsAlternate | src/services/monitor.service.ts:315 | the i-th completed poll of a run is on the starting category switched i times, and the final category is the start switched once per completed poll |
| Monitor.NoCategoryPolledTwiceInARow | src/services/monitor.service.ts:315 | consecutive completed polls are on different categories |
| Monitor.StopRequestEndsLoop | src/services/monitor.service.ts:259-329 | a stop requested during an iteration leaves the loop, and no later iteration (no later poll) contributes to the run |
| Monitor.LoopEndsOnlyOnStopOrCloseFailure | src/services/monitor.service.ts:259-329 | a running loop is left only after a stop request or a close() that threw inside the catch |
| Monitor.StartMonitoring | src/services/monitor.service.ts:250-330 | starting a running monitor does nothing; otherwise the run ends iff the running flag is false |
| Monitor.StopMonitoring | src/services/monitor.service.ts:332-335 | stopping clears the running flag, keeps the category, the last check and the last status, and closes the session; the loop applies it at the end of the iteration in which the stop was requested |
| Monitor.CaptchaUrlAsWritten | src/services/monitor.service.ts:697-702 | as written, every configuration resolves the solver URL to "undefined/solve_captcha", because the configuration object has neither base-URL field |
| Monitor.CaptchaUrl | src/services/monitor.service.ts:697-702 | with the base URL read from the environment: in production the hosted solver's variable followed by "/solve_captcha", otherwise the local one's; "undefined/solve_captcha" when the chosen variable is unset |
| Monitor.SolverFollowsNodeEnv | src/services/monitor.service.ts:697-702 | with the base URL read from the environment, NODE_ENV 'production' selects the hosted solver's variable and every other value, unset included, the local one |
| Monitor.SolverUrlFromEnvironment | src/services/monitor.service.ts:697-702 | when the selected variable is set, the solver URL is its value followed by "/solve_captcha" |
| Notification.LoadSubscribers | src/services/notification.service.ts:34-52 | the loaded set is the ids in the file, or empty when there is no readable file, and it agrees with the file |
| Notification.NoAdminWhenUnset | src/services/notification.service.ts:335 | with ADMIN_CHAT_ID unset no chat is the administrator |
| Notification.AdminIsUnique | src/services/notification.service.ts:335 | at most one chat id matches ADMIN_CHAT_ID |
| Notification.SyncPart | src/services/notification.service.ts:65-181 | the part of a handler that runs before its first await never adds a chat; /startmonitor leaves the monitor running and /stopmonitor leaves it stopped, each calling the monitor only when its state must change |
| Notification.PasswordStep | src/services/notification.service.ts:75-91 | the password adds the chat and saves the set; any other reply leaves the subscribers unchanged; exactly one reply is sent, the success or the wrong-password message; the monitor is not touched |
| Notification.RunCommand | src/services/notification.service.ts:65-181 | /start subscribes the chat iff the next message is the password; /stop removes the chat and saves; /reset empties the set iff the sender is the administrator; the other commands leave the set alone; every change is saved; the monitor is started only when stopped and stopped only when running, and the running flag afterwards follows the command |
| Notification.OnlyTheIssuingChatChanges | src/services/notification.service.ts:65-103 | subscribing or unsubscribing never changes any other chat's membership |
| Notification.StopIsIdempotent | src/services/notification.service.ts:95-103 | a second /stop from the same chat changes nothing |
| Notification.OnTextAsWritten | src/services/notification.service.ts:62-181 | as registered, a message can add no chat but its sender; without "/start" in the text it adds none; with "/start" and the password as the next message the sender ends subscribed |
| Notification.StopMonitorFiresStopAsWritten | src/services/notification.service.ts:95-181 | as registered, the text /stopmonitor triggers both the /stop and the /stopmonitor handlers, and /startmonitor triggers /start as well |
| Notification.StopInTextAsWritten | src/services/notification.service.ts:65-103 | as registered, a message containing "/stop" leaves its sender subscribed iff it also contains "/start" and the next message is the password, since the password check runs after every handler of the message |
| Notification.StopMonitorUnsubscribesAsWritten | src/services/notification.service.ts:166-181 | as registered, a subscriber who sends /stopmonitor loses the subscription |
| Notification.StartAndStopMonitorAsWritten | src/services/notification.service.ts:148-181 | as registered, a message containing both /startmonitor and /stopmonitor starts a stopped monitor and then stops it, and stops a running one; the monitor ends up stopped |
| Notification.HandlersAreExclusive | src/services/notification.service.ts:65-349 | when the command word is compared, at most one handler fires |
| Notification.WordDispatchWithinAsWritten | src/services/notification.service.ts:62-181 | every handler the command word selects is one the source's unanchored patterns also fire |
| Notification.HandlerFiresIffNamed | src/services/notification.service.ts:65-349 | when the command word is compared, a command's handler fires iff the word is that command |
| Notification.CommandOf | src/services/notification.service.ts:65-349 | a message names a command iff its first word is one of the nine commands, and then it names that one |
| Notification.CommandOfIsTheHandler | src/services/notification.service.ts:65-349 | the named command's handler is the only firing handler, and a message naming none fires none |
| Notification.OnText | src/services/notification.service.ts:62-181 | under the intended dispatch a message can add no chat but its sender; a message naming no command changes nothing and sends nothing; /stop leaves the sender unsubscribed; every change is saved |
| Notification.StopMonitorKeepsSubscriptions | src/services/notification.service.ts:166-181 | with the command word compared, /stopmonitor leaves the subscribers unchanged and only stops a running monitor |
| Notification.OnButton | src/services/notification.service.ts:215-328 | a query without a message does nothing; the /start button only prompts for the password; the /stop button removes the chat and saves; the /reset button empties the set only for the administrator; every change is saved |
| Notification.MonitorCallsAreGuarded | src/services/notification.service.ts:148-181 | a start request while running and a stop request while stopped call nothing, from text or from a button |
| Notification.SendNotification | src/services/notification.service.ts:352-384 | each subscriber stays subscribed iff its delivery did not fail with 'chat not found' or 'bot was blocked'; no chat is added; the file is rewritten iff a chat was removed; every failed delivery is counted |

## Left out

- Browser automation is not modelled: Playwright launch, navigation, selectors, screenshots, page listeners and `initialize`/`navigateToServices`. Only whether each step succeeded, and what the page contained, enters the model.
- Timers and delays (`setTimeout`, `waitForTimeout`, the retry delay) are dropped. The pauses between steps do not affect which branch is taken. The timeouts raced against page loads in `navigateToServices` (monitor.service.ts:499, :520, :532) do: they reach the model only through `navigated`, whether that call returned.
- `solveCaptcha` and `getCaptchaText` are not modelled: they post the captcha image to the solver and rethrow any failure, which the login iteration's catch turns into a counted attempt. Only the choice of URL is modelled (see Findings).
- Cookie file reading and writing, `data/subscribers.json` I/O and the JSON encoding are not modelled. A failed write is caught and logged by the program; the model assumes every write succeeds.
- Telegram message texts, keyboards, Markdown and the `/debug` and `/monitorstatus` wording are left out. Replies are the `Reply` constructors.
- `getStatus` and `formatDateBR` are left out: they format local dates in the America/Sao_Paulo time zone. Uptime is modelled as whole seconds. Flooring the fractional uptime gives the same days/hours/minutes.
- image-analysis.service.ts and metrics.service.ts are not part of this model. index.ts (the Fastify server and the startup wiring) is not either.
- Env.ParsePort: `parseInt` is modelled only for digit strings. Other texts (signs, leading blanks, trailing garbage, NaN) stay unparsed.
- Login.LoginOperation: the run covers a finite sequence of iterations. A run whose pages never show the captcha image ends in `OutOfFuel`, because the program would loop forever there.
- Monitor.Iterate: the re-initialization wrapped in a five-attempt retry is given as its boolean result and its effects after the first `initialize` (`initEffects`). `initialize` usually reports failure by returning false, which ends the wrapper after one invocation, but a `close()` that throws inside its catch makes the wrapper classify and retry. The login's effects are given as `loginEffects`. The model does not tie either input to a `RetryOperation` or `CheckCookiesAndLogin` run.
- Login.CheckCookiesAndLogin: the outcomes of the wrapped login operation are given. They are not derived from `LoginOperation` runs, where an active session or an accepted submission is a return of true, three counted attempts a return of false, and a throw an error; the cookies a successful run saves are not in this trace.
- Retry.RetryOperation: the recovery's `initialize()` is one atomic `InitializeSession` effect that returns. In the program `initialize` runs its own three-attempt `retryOperation` (monitor.service.ts:111-113), whose fatal failures call `initialize` again (:83). A launch that always fails fatally therefore nests without end and never reaches `throw lastError` (:108); see Findings.
- Notification.RunCommand: every Telegram send inside a command handler is assumed to succeed, the /start prompt (notification.service.ts:69) and the password step's replies (:80, :86) included. Nothing handles the promise an `onText` or `once('message')` callback returns, so a rejected send becomes an unhandled rejection, and the `unhandledRejection` handler (src/index.ts:143-146) ends the whole process, the monitor loop with it. The model has no such outcome.
- Notification.OnButton: `answerCallbackQuery` (notification.service.ts:225) and every reply of the button handler are assumed to succeed. A rejected one is likewise an unhandled rejection that ends the process (src/index.ts:143-146).
- Notification.SendNotification: the deliveries walk the subscriber set as it was when the call began. The program's `for ... of` walks the live Set across its awaits (notification.service.ts:357), so a chat that a concurrent /start adds is also notified, and one that a concurrent /stop removes before its turn is skipped.
- Monitor.RunLoop: `stopMonitoring` runs concurrently in the program. The model observes a stop at the end of the iteration in which it was requested.
- The `once('message')` password listener takes the next message the bot receives. The model gives that message's text as a parameter, runs the check after every handler of the current message, and does not model which chat sends the next message or the handlers that message fires itself.
- StatusService's counters are never incremented by the monitor in this repository. They are modelled on their own.

## Findings

| source | as written | input that shows it | evidently intended | confidence | as-written member | corrected member |
|---|---|---|---|---|---|---|
| src/services/notification.service.ts:95 | the handlers are registered with unanchored patterns such as `/\/stop/`, so each fires whenever its command appears anywhere in the text | a subscriber sends `/stopmonitor`: the /stop handler also runs and removes the subscription (and `/startmonitor` also starts the /start password prompt) | a message runs only the handler of the command it names | not executed | Notification.StopMonitorUnsubscribesAsWritten | Notification.StopMonitorKeepsSubscriptions |
| src/services/monitor.service.ts:699 | `getResolvedCaptchaUrl` reads `env.CAPTCHA_SERVICE_URL` and `env.CAPTCHA_SERVICE_URL_LOCAL`, but the object `validateEnv` returns (src/config/env.ts:32-41) has neither property, so the template renders "undefined" | any valid environment, even one that sets both variables: the solver URL is "undefined/solve_captcha" and every captcha request fails | the base URL is read from the CAPTCHA_SERVICE_URL variable in production and from CAPTCHA_SERVICE_URL_LOCAL otherwise | not executed; a TypeScript type check would reject the property access, so the build may not compile at all | Monitor.CaptchaUrlAsWritten | Monitor.CaptchaUrl |
| src/services/monitor.service.ts:83 | the recovery from a browser-fatal failure awaits `initialize()`, whose body runs inside another `retryOperation` (lines 111-113) | `chromium.launch` (line 124) keeps throwing "Executable doesn't exist": each failed launch re-enters `initialize`, which launches again, so neither call returns and `throw lastError` (line 108) is never reached | the launch is retried a bounded number of times and `initialize` then answers false | not executed | Retry.FatalLaunchNeverReturnsAsWritten | Retry.InitializeBounded |

=== FILE: env.dfy ===
/** Configuration loading of src/config/env.ts: `validateEnv` reads the process
    environment (a string map here), rejects a missing or empty required
    variable, naming the first one in list order, and fills in defaults for
    PORT and NODE_ENV. */
module Env {
  import opened Wrappers
  import opened Text

  /** The required variables, in the order they are checked. */
  const Required: seq<string> := [
    "TELEGRAM_BOT_TOKEN", "GOOGLE_API_KEY", "TARGET_URL",
    "BOT_PASSWORD", "MONITOR_LOGIN", "MONITOR_PASSWORD"
  ]

  const DefaultPort: string := "3000"
  const DefaultNodeEnv: string := "development"

  /** `process.env[key]` is truthy: set and not the empty string. */
  predicate Present(env: map<string, string>, key: string) {
    key in env && env[key] != ""
  }

  /** `process.env[key] || fallback`. */
  function OrDefault(env: map<string, string>, key: string, fallback: string): string {
    if Present(env, key) then env[key] else fallback
  }

  /** The outcome of `parseInt(text, 10)` for the texts this model covers: a
      run of decimal digits; anything else is kept unparsed. */
  datatype Port = PortNumber(number: nat) | Unparsed(text: string)

  function ParsePort(text: string): (p: Port)
    ensures IsDigits(text) <==> p.PortNumber?
  {
    if IsDigits(text) then PortNumber(ParseNat(text)) else Unparsed(text)
  }

  datatype Config = Config(
    telegramBotToken: string,
    googleApiKey: string,
    targetUrl: string,
    port: Port,
    nodeEnv: string,
    botPassword: string,
    monitorLogin: string,
    monitorPassword: string)

  /** Reading a string-valued property of the exported configuration object
      by name; None for a property the object does not have, which
      JavaScript reads as `undefined`. PORT, a number, is not covered. */
  function Field(cfg: Config, name: string): (v: Option<string>)
    ensures v.Some? ==> name in StringFields
  {
    if name == "TELEGRAM_BOT_TOKEN" then Some(cfg.telegramBotToken)
    else if name == "GOOGLE_API_KEY" then Some(cfg.googleApiKey)
    else if name == "TARGET_URL" then Some(cfg.targetUrl)
    else if name == "NODE_ENV" then Some(cfg.nodeEnv)
    else if name == "BOT_PASSWORD" then Some(cfg.botPassword)
    else if name == "MONITOR_LOGIN" then Some(cfg.monitorLogin)
    else if name == "MONITOR_PASSWORD" then Some(cfg.monitorPassword)
    else None
  }

  const StringFields: set<string> := {
    "TELEGRAM_BOT_TOKEN", "GOOGLE_API_KEY", "TARGET_URL", "NODE_ENV",
    "BOT_PASSWORD", "MONITOR_LOGIN", "MONITOR_PASSWORD"
  }

  /** `process.env[key]`: None when the variable is not set. */
  function Lookup(env: map<string, string>, key: string): Option<string> {
    if key in env then Some(env[key]) else None
  }

  /** A value inside a template literal: `undefined` prints as "undefined". */
  function Render(v: Option<string>): string {
    match v
    case None => "undefined"
    case Some(s) => s
  }

  /** The thrown `Missing required environment variable: <name>`. */
  datatype EnvError = MissingVariable(name: string) {
    function Message(): string {
      "Missing required environment variable: " + name
    }
  }

  /** The first key of `keys` that is not present, scanning in order. */
  function FirstMissing(env: map<string, string>, keys: seq<string>): (r: Option<string>)
    ensures r.None? <==> forall i :: 0 <= i < |keys| ==> Present(env, keys[i])
    ensures r.Some? ==> exists i :: 0 <= i < |keys| && keys[i] == r.value && !Present(env, keys[i])
                                    && forall j :: 0 <= j < i ==> Present(env, keys[j])
    decreases |keys|
  {
    if |keys| == 0 then None
    else if !Present(env, keys[0]) then Some(keys[0])
    else
      var rest := FirstMissing(env, keys[1..]);
      assert forall i :: 0 < i < |keys| ==> keys[i] == keys[1..][i - 1];
      rest
  }

  function ValidateEnv(env: map<string, string>): (r: Result<Config, EnvError>)
    ensures r.Failure? <==> exists i :: 0 <= i < |Required| && !Present(env, Required[i])
    ensures r.Failure? ==>
      exists i :: 0 <= i < |Required| && Required[i] == r.error.name && !Present(env, Required[i])
                  && forall j :: 0 <= j < i ==> Present(env, Required[j])
    ensures r.Success? ==>
      && Present(env, "TELEGRAM_BOT_TOKEN") && r.value.telegramBotToken == env["TELEGRAM_BOT_TOKEN"]
      && Present(env, "GOOGLE_API_KEY") && r.value.googleApiKey == env["GOOGLE_API_KEY"]
      && Present(env, "TARGET_URL") && r.value.targetUrl == env["TARGET_URL"]
      && Present(env, "BOT_PASSWORD") && r.value.botPassword == env["BOT_PASSWORD"]
      && Present(env, "MONITOR_LOGIN") && r.value.monitorLogin == env["MONITOR_LOGIN"]
      && Present(env, "MONITOR_PASSWORD") && r.value.monitorPassword == env["MONITOR_PASSWORD"]
    ensures r.Success? ==>
      && (Present(env, "PORT") ==> r.value.port == ParsePort(env["PORT"]))
      && (!Present(env, "PORT") ==> r.value.port == ParsePort(DefaultPort))
      && r.value.nodeEnv == (if Present(env, "NODE_ENV") then env["NODE_ENV"] else DefaultNodeEnv)
  {
    match FirstMissing(env, Required)
    case Some(name) => Failure(MissingVariable(name))
    case None =>
      assert Present(env, Required[0]) && Present(env, Required[1]) && Present(env, Required[2]);
      assert Present(env, Required[3]) && Present(env, Required[4]) && Present(env, Required[5]);
      Success(Config(
        env["TELEGRAM_BOT_TOKEN"], env["GOOGLE_API_KEY"], env["TARGET_URL"],
        ParsePort(OrDefault(env, "PORT", DefaultPort)),
        OrDefault(env, "NODE_ENV", DefaultNodeEnv),
        env["BOT_PASSWORD"], env["MONITOR_LOGIN"], env["MONITOR_PASSWORD"]))
  }

  /** With PORT unset (or empty) the server port is 3000. */
  lemma PortDefaultsTo3000(env: map<string, string>)
    requires ValidateEnv(env).Success?
    requires !Present(env, "PORT")
    ensures ValidateEnv(env).value.port == PortNumber(3000)
  {
    assert IsDigits(DefaultPort);
    assert ParseNat("3") == 3;
    assert "30"[..1] == "3";
    assert ParseNat("30") == 30;
    assert "300"[..2] == "30";
    assert ParseNat("300") == 300;
    assert DefaultPort[..3] == "300";
    assert ParseNat(DefaultPort) == 3000;
  }

  /** A PORT written as a decimal numeral is read back as that number. */
  lemma PortNumeralRoundTrip(env: map<string, string>, n: nat)
    requires ValidateEnv(env).Success?
    requires "PORT" in env && env["PORT"] == NatToString(n)
    ensures ValidateEnv(env).value.port == PortNumber(n)
  {
    ParseNatToString(n);
  }
}

=== FILE: login.dfy ===
/** `checkCookiesAndLogin` of src/services/monitor.service.ts. The login
    operation first looks for the services link (an active session); failing
    that it runs an attempt loop bounded by three counted attempts, where a
    rejected code, an unrecognised result and a caught exception each count,
    a missing captcha image re-loops without counting, and cookies are saved
    only when the link shows up after submitting. The whole operation runs
    inside `retryOperation` with three attempts, and an error escaping that
    yields `false`.

    Page reads are replaced by observations: what the page showed in each loop
    iteration. The finite sequence of iterations is the loop's fuel. */
module Login {
  import opened Wrappers
  import opened Text
  import opened MonitorTypes
  import opened Retry

  const IncorrectCodeMarker: string := "Código incorreto"
  const MaxLoginAttempts: nat := 3

  /** The check made before the loop for the services link. */
  datatype SessionCheck =
    | LinkShown                   // session still active
    | LinkMissing                 // go through the login form
    | CheckThrew(message: string) // waiting for the page or reading it threw

  /** One pass through the body of the attempt loop. */
  datatype LoginIteration =
      /** Every page call returned: the content on entry, whether the captcha
          image was there, whether the services link appeared after submitting,
          and the content after submitting. */
    | Rendered(entry: string, captchaShown: bool, linkAfterSubmit: bool, afterSubmit: string)
      /** A page call or the captcha solver threw; the recovery navigation worked. */
    | StepThrew
      /** A step threw and the recovery navigation in the catch threw too. */
    | RecoveryThrew(message: string)

  datatype LoginStep =
    | CodeRejectedOnEntry   // the entry page says the code was incorrect: reload, count
    | CaptchaMissing        // no captcha image: reload, do not count
    | Accepted              // the link appeared after submit: save cookies, succeed
    | CodeRejected          // the page after submit says the code was incorrect: count
    | Unrecognised          // neither: thrown and caught, count
    | Crashed               // a step threw and was caught: count
    | Escaped(message: string)  // the catch itself threw: leave the operation

  /** The branch of the loop body an iteration takes, in the source's order of tests. */
  function Classify(it: LoginIteration): (step: LoginStep)
    ensures step == Accepted <==>
      it.Rendered? && !Contains(it.entry, IncorrectCodeMarker) && it.captchaShown && it.linkAfterSubmit
    ensures step == CaptchaMissing <==>
      it.Rendered? && !Contains(it.entry, IncorrectCodeMarker) && !it.captchaShown
  {
    match it
    case Rendered(entry, captchaShown, linkAfterSubmit, afterSubmit) =>
      if Contains(entry, IncorrectCodeMarker) then CodeRejectedOnEntry
      else if !captchaShown then CaptchaMissing
      else if linkAfterSubmit then Accepted
      else if Contains(afterSubmit, IncorrectCodeMarker) then CodeRejected
      else Unrecognised
    case StepThrew => Crashed
    case RecoveryThrew(m) => Escaped(m)
  }

  /** The iteration increments `tentativas`. */
  predicate Counts(step: LoginStep) {
    step.CodeRejectedOnEntry? || step.CodeRejected? || step.Unrecognised? || step.Crashed?
  }

  /** The loop goes round again after this iteration (if the bound allows). */
  predicate Continues(step: LoginStep) {
    Counts(step) || step == CaptchaMissing
  }

  /** Counted attempts among the given iterations. */
  function CountedAttempts(its: seq<LoginIteration>): nat
    decreases |its|
  {
    if |its| == 0 then 0
    else CountedAttempts(its[..|its| - 1]) + (if Counts(Classify(its[|its| - 1])) then 1 else 0)
  }

  predicate AllCaptchaMissing(its: seq<LoginIteration>) {
    forall i :: 0 <= i < |its| ==> Classify(its[i]) == CaptchaMissing
  }

  /** Iterations without a captcha image never count as attempts. */
  lemma {:induction false} CaptchaMissingNeverCounts(its: seq<LoginIteration>)
    requires AllCaptchaMissing(its)
    ensures CountedAttempts(its) == 0
    decreases |its|
  {
    if |its| > 0 {
      CaptchaMissingNeverCounts(its[..|its| - 1]);
    }
  }

  /** How one run of the login operation ended. */
  datatype LoginRun =
    | AlreadyActive       // returned true without touching the form
    | LoggedIn            // returned true after a confirmed login
    | GaveUp              // three counted attempts: returned false
    | Threw(message: string)
    | OutOfFuel           // the observations ran out with the loop still going

  /** One invocation of the operation passed to `retryOperation`. */
  method LoginOperation(check: SessionCheck, iterations: seq<LoginIteration>)
    returns (run: LoginRun, attempts: nat, consumed: nat, trace: seq<Effect>)
    ensures check == LinkShown ==> run == AlreadyActive && consumed == 0 && trace == []
    ensures check.CheckThrew? ==> run == Threw(check.message) && consumed == 0 && trace == []
    ensures consumed <= |iterations| && attempts <= MaxLoginAttempts
    ensures attempts == CountedAttempts(iterations[..consumed])
    ensures run == LoggedIn <==> check == LinkMissing && 0 < consumed && Classify(iterations[consumed - 1]) == Accepted
    ensures run == GaveUp <==> check == LinkMissing && attempts == MaxLoginAttempts
    ensures run.Threw? && check == LinkMissing ==>
      0 < consumed && Classify(iterations[consumed - 1]) == Escaped(run.message)
    ensures run == OutOfFuel ==> check == LinkMissing && consumed == |iterations| && attempts < MaxLoginAttempts
    ensures forall i :: 0 <= i < consumed && (i < consumed - 1 || run == GaveUp || run == OutOfFuel) ==>
      Continues(Classify(iterations[i]))
    ensures trace == (if run == LoggedIn then [SaveCookies] else [])
    ensures check == LinkMissing && AllCaptchaMissing(iterations) ==>
      run == OutOfFuel && attempts == 0 && consumed == |iterations|
  {
    trace := [];
    attempts := 0;
    consumed := 0;
    match check
    case LinkShown =>
      run := AlreadyActive;
      return;
    case CheckThrew(m) =>
      run := Threw(m);
      return;
    case LinkMissing =>
    while attempts < MaxLoginAttempts
      invariant consumed <= |iterations| && attempts <= MaxLoginAttempts
      invariant attempts == CountedAttempts(iterations[..consumed])
      invariant forall i :: 0 <= i < consumed ==> Continues(Classify(iterations[i]))
      invariant AllCaptchaMissing(iterations) ==> attempts == 0
      decreases |iterations| - consumed
    {
      if consumed == |iterations| {
        run := OutOfFuel;
        return;
      }
      var step := Classify(iterations[consumed]);
      assert iterations[..consumed + 1] == iterations[..consumed] + [iterations[consumed]];
      assert iterations[..consumed + 1][..consumed] == iterations[..consumed];
      consumed := consumed + 1;
      if AllCaptchaMissing(iterations) {
        assert AllCaptchaMissing(iterations[..consumed]);
        CaptchaMissingNeverCounts(iterations[..consumed]);
      }
      if step == Accepted {
        run := LoggedIn;
        trace := [SaveCookies];
        return;
      } else if step.Escaped? {
        run := Threw(step.message);
        return;
      } else if Counts(step) {
        attempts := attempts + 1;
      }
    }
    run := GaveUp;
  }

  /** `checkCookiesAndLogin`: the login operation under `retryOperation` with
      three attempts; an error that survives every attempt yields false.
      `outcomes` are the operation's outcomes on successive invocations. */
  method CheckCookiesAndLogin(outcomes: seq<Outcome<bool>>, category: Category)
    returns (loggedIn: bool, invocations: nat, trace: seq<Effect>)
    requires 3 <= |outcomes|
    ensures loggedIn <==> exists k :: 0 <= k < 3 && outcomes[k] == Ok(true) && AllFailed(outcomes[..k])
    ensures outcomes[0].Ok? ==> loggedIn == outcomes[0].value && invocations == 1 && trace == []
    ensures AllFailed(outcomes[..3]) ==>
      !loggedIn && invocations == 3 && trace == FailureTrace(outcomes[..3], 3, category)
    ensures !AllFailed(outcomes[..3]) ==>
      && 1 <= invocations <= 3
      && outcomes[invocations - 1].Ok?
      && loggedIn == outcomes[invocations - 1].value
      && AllFailed(outcomes[..invocations - 1])
      && trace == FailureTrace(outcomes[..invocations - 1], 3, category)
    ensures invocations <= 3
  {
    var r;
    r, invocations, trace := RetryOperation(outcomes, 3, category);
    loggedIn := r == Returned(true);
    if loggedIn {
      assert outcomes[invocations - 1] == Ok(true);
    }
    if outcomes[0].Ok? {
      assert AllFailed(outcomes[..0]);
    }
    if AllFailed(outcomes[..3]) {
      assert forall k :: 0 <= k < 3 ==> outcomes[k] == outcomes[..3][k];
    }
  }
}

=== FILE: monitor.dfy ===
/** The polling loop of src/services/monitor.service.ts (`startMonitoring`,
    `stopMonitoring`) as a state machine over the monitor's observable state.
    Each iteration re-creates a dead session, logs in, navigates to the
    services page, polls the current category and flips the category only
    when the poll was conclusive. Browser calls, the login procedure and the
    retry wrappers are replaced by what they returned; timers are dropped. */
module Monitor {
  import opened Wrappers
  import opened Text
  import opened MonitorTypes
  import opened Poll
  import Env

  /** `_isRunning`, `_currentConvenio`, `_lastCheck` (a clock reading) and `_lastStatus`. */
  datatype MonitorState = MonitorState(
    isRunning: bool,
    category: Category,
    lastCheck: Option<nat>,
    lastStatus: Option<string>)

  /** The state of a freshly constructed `MonitorService`. */
  function InitialState(): (st: MonitorState)
    ensures !st.isRunning && st.category.Code() == "16" && st.lastCheck.None? && st.lastStatus.None?
  {
    MonitorState(false, Niteroi, None, None)
  }

  /** What the outside world did during one iteration of the loop. The
      effects of the two wrapped calls are given as their traces (see
      `Retry.RetryOperation` and `Login.CheckCookiesAndLogin`). */
  datatype CycleInputs = CycleInputs(
    sessionAlive: bool,   // browser and page are both set (the crash/disconnect listeners clear them)
    initOk: bool,         // `retryOperation(() => this.initialize(), 5, ...)` gave true
    initEffects: seq<Effect>,   // what that wrapper did after its first `initialize()`: recoveries and alerts
    loggedIn: bool,       // `checkCookiesAndLogin()` gave true
    loginEffects: seq<Effect>,  // what `checkCookiesAndLogin()` did: its retry trace and any saved cookies
    navigated: bool,      // `navigateToServices()` returned without throwing
    now: nat,             // the clock reading stored in `_lastCheck`
    page: PollPage,       // what `processConvenio` met
    screenshotOk: bool,   // the screenshot for the loop's own slot notification
    renavigated: bool,    // `navigateToServices()` after a null result returned
    closeThrew: bool,     // `close()` in the iteration's catch threw
    stopRequested: bool)  // `stopMonitoring()` ran during this iteration

  datatype IterationEnd =
    | Completed    // reached the category flip
    | LoginFailed  // login returned false: `continue`
    | Retrying     // processConvenio returned null: `continue`
    | Caught       // an exception reached the loop's catch
    | Escaped      // the catch's own `close()` threw: the loop is left

  datatype Iteration = Iteration(state: MonitorState, effects: seq<Effect>, end: IterationEnd)

  /** The loop's catch: close the session; if that throws the loop is left. */
  function Fail(st: MonitorState, effects: seq<Effect>, closeThrew: bool): Iteration {
    Iteration(st, effects + [CloseSession], if closeThrew then Escaped else Caught)
  }

  function FoundStatus(city: string): string {
    "Novo serviço disponível em " + city
  }

  /** The effects of re-creating a dead session and of logging in, which
      precede everything else an iteration does once login has returned. */
  function SetupEffects(inp: CycleInputs): seq<Effect> {
    (if inp.sessionAlive then [] else [InitializeSession] + inp.initEffects) + inp.loginEffects
  }

  /** One pass through the body of `while (this.isRunning)`. */
  function Iterate(st: MonitorState, inp: CycleInputs): (r: Iteration)
    ensures r.state.isRunning == st.isRunning
    ensures r.state.category == (if r.end == Completed then st.category.Flip() else st.category)
    ensures r.end == LoginFailed ==> r.state == st && r.effects == SetupEffects(inp)
    ensures r.end == Completed <==> Conclusive(st, inp)
    ensures Conclusive(st, inp) ==> r.state.lastCheck == Some(inp.now) && SetupEffects(inp) <= r.effects
    ensures Conclusive(st, inp) && ClassifyPage(inp.page.content, st.category).Available? ==>
      && r.state.lastStatus == Some(FoundStatus(st.category.City()))
      && r.effects == SetupEffects(inp) + [Notify(NewService(st.category))]
           + (if inp.page.claimOk then [] else [Notify(ClaimFailed)])
           + [Notify(ServiceFoundIn(st.category.City()))]
    ensures Conclusive(st, inp) && ClassifyPage(inp.page.content, st.category).NotAvailable? ==>
      && r.state.lastStatus == Some(NoVacancyStatus(st.category))
      && r.effects == SetupEffects(inp)
  {
    var pre := if inp.sessionAlive then [] else [InitializeSession] + inp.initEffects;
    if !inp.sessionAlive && !inp.initOk then Fail(st, pre, inp.closeThrew)
    else
      var setup := SetupEffects(inp);
      if !inp.loggedIn then Iteration(st, setup, LoginFailed)
      else if !inp.navigated then Fail(st, setup, inp.closeThrew)
      else
        var checked := st.(lastCheck := Some(inp.now));
        var poll := ProcessConvenio(st.category, inp.page, st.lastStatus);
        var polled := checked.(lastStatus := poll.lastStatus);
        var effects := setup + poll.effects;
        match poll.result
        case None =>
          if inp.renavigated then Iteration(polled, effects, Retrying)
          else Fail(polled, effects, inp.closeThrew)
        case Some(res) =>
          if res.hasUpdates then
            var found := polled.(lastStatus := Some(FoundStatus(res.city)));
            if !inp.screenshotOk then Fail(found, effects, inp.closeThrew)
            else
              Iteration(found.(category := st.category.Flip()), effects + [Notify(ServiceFoundIn(res.city))], Completed)
          else Iteration(polled.(category := st.category.Flip()), effects, Completed)
  }

  /** The poll of this iteration was conclusive and nothing threw after it. */
  predicate Conclusive(st: MonitorState, inp: CycleInputs) {
    && (inp.sessionAlive || inp.initOk)
    && inp.loggedIn
    && inp.navigated
    && inp.page.PollRendered?
    && match ClassifyPage(inp.page.content, st.category)
       case Inconclusive => false
       case Available(_) => inp.page.screenshotOk && inp.screenshotOk
       case NotAvailable(_) => true
  }

  /** A run of the loop over a finite prefix of its iterations: the final
      state, the effects, the categories of the completed polls in order, and
      whether the loop has been left. */
  datatype Run = Run(state: MonitorState, effects: seq<Effect>, completed: seq<Category>, exited: bool)

  /** The `while (this.isRunning)` loop. A stop requested during an iteration
      takes effect at its end: `stopMonitoring` clears the flag and closes the
      session. */
  function RunLoop(st: MonitorState, cycles: seq<CycleInputs>): (r: Run)
    ensures r.exited <==> !r.state.isRunning
    decreases |cycles|
  {
    if !st.isRunning then Run(st, [], [], true)
    else if |cycles| == 0 then Run(st, [], [], false)
    else
      var inp := cycles[0];
      var it := Iterate(st, inp);
      var here := if it.end == Completed then [st.category] else [];
      var stop := StopMonitoring(it.state);
      var effects := it.effects + (if inp.stopRequested then stop.1 else []);
      var after := if inp.stopRequested then stop.0 else it.state;
      if it.end == Escaped then Run(after.(isRunning := false), effects, here, true)
      else
        var rest := RunLoop(after, cycles[1..]);
        Run(rest.state, effects + rest.effects, here + rest.completed, rest.exited)
  }

  lemma FlipTimesShift(c: Category, n: nat)
    ensures FlipTimes(c.Flip(), n) == FlipTimes(c, n + 1)
  {
    FlipInvolutive(c);
  }

  /** How `RunLoop` continues after a first iteration that did not leave the loop. */
  lemma RunLoopStep(st: MonitorState, cycles: seq<CycleInputs>)
    requires st.isRunning && |cycles| > 0
    requires Iterate(st, cycles[0]).end != Escaped
    ensures var it := Iterate(st, cycles[0]);
      var after := if cycles[0].stopRequested then StopMonitoring(it.state).0 else it.state;
      var rest := RunLoop(after, cycles[1..]);
      && after.category == (if it.end == Completed then st.category.Flip() else st.category)
      && RunLoop(st, cycles).completed == (if it.end == Completed then [st.category] else []) + rest.completed
      && RunLoop(st, cycles).state == rest.state
  {
  }

  /** Completed polls alternate between the two categories, starting from the
      category current when the loop was entered, and the final category is
      the start flipped once per completed poll. */
  lemma {:induction false} CompletedPollsAlternate(st: MonitorState, cycles: seq<CycleInputs>)
    ensures var r := RunLoop(st, cycles);
      && (forall i :: 0 <= i < |r.completed| ==> r.completed[i] == FlipTimes(st.category, i))
      && r.state.category == FlipTimes(st.category, |r.completed|)
    decreases |cycles|
  {
    if st.isRunning && |cycles| > 0 {
      var it := Iterate(st, cycles[0]);
      if it.end != Escaped {
        var after := if cycles[0].stopRequested then StopMonitoring(it.state).0 else it.state;
        RunLoopStep(st, cycles);
        CompletedPollsAlternate(after, cycles[1..]);
        var rest := RunLoop(after, cycles[1..]);
        var r := RunLoop(st, cycles);
        if it.end == Completed {
          assert r.completed == [st.category] + rest.completed;
          forall i | 0 <= i < |r.completed|
            ensures r.completed[i] == FlipTimes(st.category, i)
          {
            if i > 0 {
              assert r.completed[i] == rest.completed[i - 1];
              FlipTimesShift(st.category, i - 1);
            }
          }
          FlipTimesShift(st.category, |rest.completed|);
        } else {
          assert r.completed == rest.completed;
        }
      }
    }
  }

  /** Two consecutive completed polls never use the same category. */
  lemma NoCategoryPolledTwiceInARow(st: MonitorState, cycles: seq<CycleInputs>, i: nat)
    requires i + 1 < |RunLoop(st, cycles).completed|
    ensures RunLoop(st, cycles).completed[i + 1] == RunLoop(st, cycles).completed[i].Flip()
  {
    var r := RunLoop(st, cycles);
    CompletedPollsAlternate(st, cycles);
    assert r.completed[i] == FlipTimes(st.category, i);
    assert r.completed[i + 1] == FlipTimes(st.category, i + 1);
    FlipTimesSucc(st.category, i);
  }

  lemma FlipTimesSucc(c: Category, n: nat)
    ensures FlipTimes(c, n + 1) == FlipTimes(c, n).Flip()
  {
  }

  predicate EndsLoop(inp: CycleInputs) {
    inp.stopRequested || inp.closeThrew
  }

  /** The loop is never left on its own: only a stop request or a `close()`
      that throws inside the catch ends it. */
  lemma {:induction false} LoopEndsOnlyOnStopOrCloseFailure(st: MonitorState, cycles: seq<CycleInputs>)
    requires st.isRunning
    ensures RunLoop(st, cycles).exited ==> exists i :: 0 <= i < |cycles| && EndsLoop(cycles[i])
    decreases |cycles|
  {
    if |cycles| > 0 {
      var inp := cycles[0];
      var it := Iterate(st, inp);
      var after := if inp.stopRequested then StopMonitoring(it.state).0 else it.state;
      if !EndsLoop(inp) {
        assert it.end != Escaped;
        LoopEndsOnlyOnStopOrCloseFailure(after, cycles[1..]);
        if RunLoop(st, cycles).exited {
          var i :| 0 <= i < |cycles[1..]| && EndsLoop(cycles[1..][i]);
          assert cycles[i + 1] == cycles[1..][i];
        }
      }
    }
  }

  /** A stop request ends the loop at the end of the iteration that saw it:
      the loop is left, and nothing after that iteration, no further poll
      included, contributes to the run. */
  lemma {:induction false} StopRequestEndsLoop(st: MonitorState, cycles: seq<CycleInputs>, i: nat)
    requires i < |cycles| && cycles[i].stopRequested
    ensures RunLoop(st, cycles).exited
    ensures RunLoop(st, cycles) == RunLoop(st, cycles[..i + 1])
    decreases i
  {
    var prefix := cycles[..i + 1];
    if st.isRunning {
      var it := Iterate(st, cycles[0]);
      var after := if cycles[0].stopRequested then StopMonitoring(it.state).0 else it.state;
      assert prefix[0] == cycles[0];
      if it.end != Escaped {
        if i == 0 {
          assert !after.isRunning;
        } else {
          assert prefix[1..] == cycles[1..][..i];
          StopRequestEndsLoop(after, cycles[1..], i - 1);
        }
      }
    }
  }

  /** `startMonitoring`: a no-op when already running; otherwise set the flag
      and run the loop, clearing the flag (`finally`) when the loop is left.
      Here `exited` means that the call returned: the no-op returns at once
      and leaves the other run's flag set. */
  function StartMonitoring(st: MonitorState, cycles: seq<CycleInputs>): (r: Run)
    ensures st.isRunning ==> r == Run(st, [], [], true)
    ensures !st.isRunning ==> (r.exited <==> !r.state.isRunning)
  {
    if st.isRunning then Run(st, [], [], true)
    else RunLoop(st.(isRunning := true), cycles)
  }

  /** `stopMonitoring`: clear the flag, then close the session. The loop
      notices the cleared flag at its next test; the category, the last check
      and the last status are kept. */
  function StopMonitoring(st: MonitorState): (r: (MonitorState, seq<Effect>))
    ensures !r.0.isRunning
    ensures r.0.category == st.category && r.0.lastCheck == st.lastCheck && r.0.lastStatus == st.lastStatus
    ensures r.1 == [CloseSession]
  {
    (st.(isRunning := false), [CloseSession])
  }

  const HostedSolverKey: string := "CAPTCHA_SERVICE_URL"
  const LocalSolverKey: string := "CAPTCHA_SERVICE_URL_LOCAL"

  /** The variable naming the solver's base URL for a NODE_ENV. */
  function SolverKey(nodeEnv: string): string {
    if nodeEnv == "production" then HostedSolverKey else LocalSolverKey
  }

  /** `getResolvedCaptchaUrl` as written: it reads the base URL from the
      validated configuration object, which has no field of either name, so
      every configuration resolves the solver to "undefined/solve_captcha",
      even with both variables set. */
  function CaptchaUrlAsWritten(cfg: Env.Config): (r: string)
    ensures r == "undefined/solve_captcha"
  {
    assert SolverKey(cfg.nodeEnv) !in Env.StringFields;
    Env.Render(Env.Field(cfg, SolverKey(cfg.nodeEnv))) + "/solve_captcha"
  }

  /** `getResolvedCaptchaUrl` as evidently intended: the hosted solver's
      variable in production, the local one otherwise, read from the
      environment; an unset variable renders as "undefined". */
  function CaptchaUrl(cfg: Env.Config, env: map<string, string>): (r: string)
    ensures cfg.nodeEnv == "production" && HostedSolverKey in env ==> r == env[HostedSolverKey] + "/solve_captcha"
    ensures cfg.nodeEnv != "production" && LocalSolverKey in env ==> r == env[LocalSolverKey] + "/solve_captcha"
    ensures SolverKey(cfg.nodeEnv) !in env ==> r == "undefined/solve_captcha"
  {
    Env.Render(Env.Lookup(env, SolverKey(cfg.nodeEnv))) + "/solve_captcha"
  }

  /** NODE_ENV decides the solver both ways: 'production' selects the hosted
      solver, and every other value, unset included (the configuration
      defaults it to 'development'), selects the local one. */
  lemma SolverFollowsNodeEnv(env: map<string, string>)
    requires Env.ValidateEnv(env).Success?
    ensures var url := CaptchaUrl(Env.ValidateEnv(env).value, env);
      && (Env.Present(env, "NODE_ENV") && env["NODE_ENV"] == "production" ==>
            url == Env.Render(Env.Lookup(env, HostedSolverKey)) + "/solve_captcha")
      && (!(Env.Present(env, "NODE_ENV") && env["NODE_ENV"] == "production") ==>
            url == Env.Render(Env.Lookup(env, LocalSolverKey)) + "/solve_captcha")
  {
  }

  /** With the chosen variable set, the solver URL is built from its value. */
  lemma SolverUrlFromEnvironment(env: map<string, string>)
    requires Env.ValidateEnv(env).Success?
    ensures var key := SolverKey(Env.ValidateEnv(env).value.nodeEnv);
      key in env ==> CaptchaUrl(Env.ValidateEnv(env).value, env) == env[key] + "/solve_captcha"
  {
  }
}

=== FILE: monitor_types.dfy ===
/** Vocabulary shared by the monitor's components (src/services/monitor.service.ts):
    the two polling categories ("convênios"), the notifications the monitor
    sends, and the side effects the model records in place of browser,
    file-system and Telegram calls. */
module MonitorTypes {

  /** The category code `'16' | '18'`; 16 is Niterói, 18 is Maricá. */
  datatype Category = Niteroi | Marica {

    function Code(): (c: string)
      ensures c == "16" || c == "18"
    {
      match this
      case Niteroi => "16"
      case Marica => "18"
    }

    /** The city label, computed from the code as the source does: "16" is
        Niterói and every other code Maricá. */
    function City(): string {
      if Code() == "16" then "Niterói" else "Maricá"
    }

    /** The category polled next after a conclusive cycle. */
    function Flip(): (c: Category)
      ensures c != this
    {
      if Code() == "16" then Marica else Niteroi
    }
  }

  /** Flipping twice returns to the same category. */
  lemma FlipInvolutive(c: Category)
    ensures c.Flip().Flip() == c
  {
  }

  /** `c.Flip()` applied `n` times. */
  function FlipTimes(c: Category, n: nat): Category {
    if n % 2 == 0 then c else c.Flip()
  }

  /** A message passed to `notificationService.sendNotification`. */
  datatype Notice =
      /** A network-class failure inside `retryOperation`, with the attempt
          number, the attempt bound, the error text and the current category. */
    | ConnectionProblem(attempt: int, maxRetries: int, error: string, category: Category)
      /** `processConvenio` found a slot (sent with a screenshot). */
    | NewService(category: Category)
      /** The "SOLICITAR SERVIÇO" click failed (sent with the same screenshot). */
    | ClaimFailed
      /** The polling loop's own report of a slot in a city (sent with a screenshot). */
    | ServiceFoundIn(city: string)

  /** The effects the model records, in the order the source performs them. */
  datatype Effect =
    | CloseSession          // `close()`
    | InitializeSession     // `initialize()`
    | Notify(notice: Notice)
    | SaveCookies           // `saveCookies(...)` after a confirmed login

  function CountEffect(trace: seq<Effect>, e: Effect): nat
    decreases |trace|
  {
    if |trace| == 0 then 0
    else CountEffect(trace[..|trace| - 1], e) + (if trace[|trace| - 1] == e then 1 else 0)
  }

  lemma {:induction false} CountEffectAppend(a: seq<Effect>, b: seq<Effect>, e: Effect)
    ensures CountEffect(a + b, e) == CountEffect(a, e) + CountEffect(b, e)
    decreases |b|
  {
    if |b| > 0 {
      assert (a + b)[..|a + b| - 1] == a + b[..|b| - 1];
      CountEffectAppend(a, b[..|b| - 1], e);
    } else {
      assert a + b == a;
    }
  }
}

=== FILE: notification.dfy ===
/** The subscriber management of src/services/notification.service.ts: a set
    of Telegram chat ids changed by the bot's commands and menu buttons and
    pruned when a delivery fails because the chat is gone or blocked the bot.
    Every change is written to `data/subscribers.json`; `saved` is the last
    snapshot written. Telegram calls become the replies they would send and
    the monitor calls they would make. */
module Notification {
  import opened Wrappers
  import opened Text

  datatype Subscribers = Subscribers(chats: set<int>, saved: set<int>)

  /** The file holds the current set. */
  predicate Persisted(s: Subscribers) {
    s.saved == s.chats
  }

  /** Change the set and `saveSubscribers()`. */
  function SaveAs(chats: set<int>): (s: Subscribers)
    ensures Persisted(s) && s.chats == chats
  {
    Subscribers(chats, chats)
  }

  /** `loadSubscribers()`: the ids stored in the file, or none when the file
      is missing or unreadable (given as None). `saved` is what the program
      writes at its next save, not the file's current content: a corrupt file
      keeps its bytes until then. */
  function LoadSubscribers(file: Option<seq<int>>): (s: Subscribers)
    ensures Persisted(s)
    ensures forall x :: x in s.chats <==> file.Some? && x in file.value
  {
    match file
    case None => Subscribers({}, {})
    case Some(ids) => SaveAs(set x | x in ids)
  }

  /** `BOT_PASSWORD` and `process.env.ADMIN_CHAT_ID` (which may be unset). */
  datatype BotConfig = BotConfig(password: string, adminChatId: Option<string>)

  /** `chatId.toString() === process.env.ADMIN_CHAT_ID`. */
  predicate IsAdmin(cfg: BotConfig, chat: int) {
    cfg.adminChatId == Some(IntToString(chat))
  }

  /** An unset ADMIN_CHAT_ID makes nobody an administrator. */
  lemma NoAdminWhenUnset(cfg: BotConfig, chat: int)
    requires cfg.adminChatId.None?
    ensures !IsAdmin(cfg, chat)
  {
  }

  /** At most one chat is the administrator. */
  lemma AdminIsUnique(cfg: BotConfig, a: int, b: int)
    requires IsAdmin(cfg, a) && IsAdmin(cfg, b)
    ensures a == b
  {
    IntToStringInjective(a, b);
  }

  /** The bot's text commands, in the order their handlers are registered. */
  datatype Command = Start | Stop | Status | Debug | MonitorStatus | StartMonitor | StopMonitor | Menu | Reset

  const Registered: seq<Command> := [Start, Stop, Status, Debug, MonitorStatus, StartMonitor, StopMonitor, Menu, Reset]

  /** The text each handler's regular expression looks for. */
  function Pattern(c: Command): string {
    match c
    case Start => "/start"
    case Stop => "/stop"
    case Status => "/status"
    case Debug => "/debug"
    case MonitorStatus => "/monitorstatus"
    case StartMonitor => "/startmonitor"
    case StopMonitor => "/stopmonitor"
    case Menu => "/menu"
    case Reset => "/reset"
  }

  /** The messages the bot sends back. */
  datatype Reply =
    | PasswordPrompt
    | SubscribeOk
    | WrongPassword
    | Unsubscribed
    | SubscriptionStatus(subscribed: bool)
    | DebugInfo(chat: int, chats: set<int>)
    | MonitorReport(running: bool)
    | AlreadyRunning
    | AlreadyStopped
    | MenuShown
    | ResetDone
    | AccessDenied
    | UnknownCommand

  /** A call into the monitor (`startMonitoring` / `stopMonitoring`). */
  datatype MonitorCall = CallStart | CallStop

  /** What handling produced: the subscribers, the replies sent, the monitor
      calls made, and `monitorService.isRunning` afterwards. */
  datatype Handled = Handled(subs: Subscribers, replies: seq<Reply>, calls: seq<MonitorCall>, running: bool)

  /** The part of a command's handler that runs before its first `await`. For
      `/start` that is only the prompt: the password check is registered with
      `once('message')` after the prompt has been sent. `startMonitoring` and
      `stopMonitoring` change `isRunning` before their own first `await`, so a
      call is already visible to the next handler. No synchronous part adds a
      chat. */
  function SyncPart(subs: Subscribers, cfg: BotConfig, chat: int, c: Command, running: bool): (r: Handled)
    ensures r.subs.chats <= subs.chats
    ensures r.running == (if c == StartMonitor then true else if c == StopMonitor then false else running)
    ensures r.calls == (if c == StartMonitor && !running then [CallStart]
                        else if c == StopMonitor && running then [CallStop]
                        else [])
  {
    match c
    case Start => Handled(subs, [PasswordPrompt], [], running)
    case Stop => Handled(SaveAs(subs.chats - {chat}), [Unsubscribed], [], running)
    case Status => Handled(subs, [SubscriptionStatus(chat in subs.chats)], [], running)
    case Debug => Handled(subs, [DebugInfo(chat, subs.chats)], [], running)
    case MonitorStatus => Handled(subs, [MonitorReport(running)], [], running)
    case StartMonitor =>
      if running then Handled(subs, [AlreadyRunning], [], running) else Handled(subs, [], [CallStart], true)
    case StopMonitor =>
      if !running then Handled(subs, [AlreadyStopped], [], running) else Handled(subs, [], [CallStop], false)
    case Menu => Handled(subs, [MenuShown], [], running)
    case Reset =>
      if IsAdmin(cfg, chat) then Handled(SaveAs({}), [ResetDone], [], running)
      else Handled(subs, [AccessDenied], [], running)
  }

  /** The `/start` listener for the next message: `reply` is its text (None
      when it has none); the password subscribes `chat`. */
  function PasswordStep(h: Handled, cfg: BotConfig, chat: int, reply: Option<string>): (r: Handled)
    ensures reply == Some(cfg.password) ==> r.subs.chats == h.subs.chats + {chat} && Persisted(r.subs)
    ensures reply != Some(cfg.password) ==> r.subs == h.subs
    ensures r.replies == h.replies + [if reply == Some(cfg.password) then SubscribeOk else WrongPassword]
    ensures r.calls == h.calls && r.running == h.running
  {
    if reply == Some(cfg.password) then Handled(SaveAs(h.subs.chats + {chat}), h.replies + [SubscribeOk], h.calls, h.running)
    else Handled(h.subs, h.replies + [WrongPassword], h.calls, h.running)
  }

  /** One command's handler for `chat`, run to completion. `running` is
      `monitorService.isRunning` when it starts. */
  function RunCommand(subs: Subscribers, cfg: BotConfig, chat: int, c: Command, reply: Option<string>, running: bool): (r: Handled)
    ensures c == Start ==>
      r.subs.chats == (if reply == Some(cfg.password) then subs.chats + {chat} else subs.chats)
    ensures c == Stop ==> r.subs.chats == subs.chats - {chat} && Persisted(r.subs)
    ensures c == Reset ==> r.subs.chats == (if IsAdmin(cfg, chat) then {} else subs.chats)
    ensures c !in {Start, Stop, Reset} ==> r.subs == subs
    ensures r.subs != subs ==> Persisted(r.subs)
    ensures r.calls == (if c == StartMonitor && !running then [CallStart]
                        else if c == StopMonitor && running then [CallStop]
                        else [])
    ensures r.running == (if c == StartMonitor then true else if c == StopMonitor then false else running)
  {
    var s := SyncPart(subs, cfg, chat, c, running);
    if c == Start then PasswordStep(s, cfg, chat, reply) else s
  }

  /** Subscribing and unsubscribing touch only the issuing chat. */
  lemma OnlyTheIssuingChatChanges(subs: Subscribers, cfg: BotConfig, chat: int, c: Command, reply: Option<string>, running: bool, other: int)
    requires c == Start || c == Stop
    requires other != chat
    ensures other in RunCommand(subs, cfg, chat, c, reply, running).subs.chats <==> other in subs.chats
  {
  }

  /** `/stop` is idempotent. */
  lemma StopIsIdempotent(subs: Subscribers, cfg: BotConfig, chat: int, reply: Option<string>, running: bool)
    ensures var once := RunCommand(subs, cfg, chat, Stop, reply, running);
      RunCommand(once.subs, cfg, chat, Stop, reply, running).subs == once.subs
  {
  }

  // ---------------------------------------------------------------------------
  // Dispatch of a text message to the command handlers

  /** The text up to the first space: the command a message names. */
  function CommandWord(text: string): (w: string)
    ensures IsPrefix(w, text)
    ensures forall i :: 0 <= i < |w| ==> w[i] != ' '
    ensures |w| < |text| ==> text[|w|] == ' '
    decreases |text|
  {
    if |text| == 0 || text[0] == ' ' then "" else [text[0]] + CommandWord(text[1..])
  }

  /** A text without spaces is its own command word. */
  lemma CommandWordOfWord(text: string)
    requires forall i :: 0 <= i < |text| ==> text[i] != ' '
    ensures CommandWord(text) == text
  {
  }

  const AllCommands: set<Command> := {Start, Stop, Status, Debug, MonitorStatus, StartMonitor, StopMonitor, Menu, Reset}

  /** Handlers that fire for `text` as the source registers them: each
      `onText` pattern is an unanchored regular expression, so a handler fires
      whenever its command occurs anywhere in the text. */
  function HandlersAsWritten(text: string): set<Command> {
    set c | c in AllCommands && Contains(text, Pattern(c))
  }

  /** Handlers that fire when the message's command word is compared with each
      command: the evidently intended dispatch. */
  function Handlers(text: string): set<Command> {
    set c | c in AllCommands && CommandWord(text) == Pattern(c)
  }

  /** The intended dispatch runs the handler of the named command and no other. */
  lemma HandlersAreExclusive(text: string, a: Command, b: Command)
    requires a in Handlers(text) && b in Handlers(text)
    ensures a == b
  {
  }

  /** Under the intended dispatch a handler fires exactly when the message's
      command word is its command. */
  lemma HandlerFiresIffNamed(text: string, a: Command)
    ensures a in Handlers(text) <==> CommandWord(text) == Pattern(a)
  {
    assert a in AllCommands;
  }

  /** The intended dispatch only narrows the source's: a handler chosen by
      the command word is one whose pattern occurs in the text. */
  lemma WordDispatchWithinAsWritten(text: string)
    ensures Handlers(text) <= HandlersAsWritten(text)
  {
    forall c | c in Handlers(text)
      ensures c in HandlersAsWritten(text)
    {
      assert IsPrefix(Pattern(c), text);
    }
  }

  /** As written, `/stopmonitor` fires both the `/stop` and the `/stopmonitor`
      handlers (and `/startmonitor` the `/start` one). */
  lemma StopMonitorFiresStopAsWritten()
    ensures Stop in HandlersAsWritten("/stopmonitor") && StopMonitor in HandlersAsWritten("/stopmonitor")
    ensures Start in HandlersAsWritten("/startmonitor") && StartMonitor in HandlersAsWritten("/startmonitor")
  {
    assert IsPrefix("/stop", "/stopmonitor");
    assert IsPrefix("/stopmonitor", "/stopmonitor");
    assert IsPrefix("/start", "/startmonitor");
    assert IsPrefix("/startmonitor", "/startmonitor");
  }

  /** The firing handlers, in registration order. */
  function Firing(text: string, cmds: seq<Command>): seq<Command>
    decreases |cmds|
  {
    if |cmds| == 0 then []
    else (if Contains(text, Pattern(cmds[0])) then [cmds[0]] else []) + Firing(text, cmds[1..])
  }

  /** Run the synchronous parts of handlers one after another, collecting
      replies and monitor calls and threading `isRunning` through. */
  function RunAll(h: Handled, cfg: BotConfig, chat: int, cmds: seq<Command>): Handled
    decreases |cmds|
  {
    if |cmds| == 0 then h
    else
      var step := SyncPart(h.subs, cfg, chat, cmds[0], h.running);
      RunAll(Handled(step.subs, h.replies + step.replies, h.calls + step.calls, step.running), cfg, chat, cmds[1..])
  }

  /** A text message as the source handles it: every matching handler starts,
      in registration order, and runs up to its first `await`; the `/start`
      password check, registered only once the prompt is sent, comes after
      all of them. */
  function OnTextAsWritten(subs: Subscribers, cfg: BotConfig, chat: int, text: string, reply: Option<string>, running: bool): (r: Handled)
    ensures forall x :: x in r.subs.chats && x != chat ==> x in subs.chats
    ensures !Contains(text, Pattern(Start)) ==> r.subs.chats <= subs.chats
    ensures Contains(text, Pattern(Start)) && reply == Some(cfg.password) ==> chat in r.subs.chats
  {
    var h := RunRegistered(Handled(subs, [], [], running), cfg, chat, text);
    RunAllNeverAdds(Handled(subs, [], [], running), cfg, chat, Firing(text, Registered));
    if Contains(text, Pattern(Start)) then PasswordStep(h, cfg, chat, reply) else h
  }

  /** The synchronous parts of every registered handler that fires for `text`. */
  function RunRegistered(h: Handled, cfg: BotConfig, chat: int, text: string): Handled {
    RunAll(h, cfg, chat, Firing(text, Registered))
  }

  /** The synchronous parts never add a chat. */
  lemma {:induction false} RunAllNeverAdds(h: Handled, cfg: BotConfig, chat: int, cmds: seq<Command>)
    ensures RunAll(h, cfg, chat, cmds).subs.chats <= h.subs.chats
    decreases |cmds|
  {
    if |cmds| > 0 {
      var step := SyncPart(h.subs, cfg, chat, cmds[0], h.running);
      RunAllNeverAdds(Handled(step.subs, h.replies + step.replies, h.calls + step.calls, step.running), cfg, chat, cmds[1..]);
    }
  }

  /** Without a monitor command no handler calls the monitor or changes
      `isRunning`. */
  lemma {:induction false} RunAllWithoutMonitorCommands(h: Handled, cfg: BotConfig, chat: int, cmds: seq<Command>)
    requires StartMonitor !in cmds && StopMonitor !in cmds
    ensures RunAll(h, cfg, chat, cmds).calls == h.calls
    ensures RunAll(h, cfg, chat, cmds).running == h.running
    decreases |cmds|
  {
    if |cmds| > 0 {
      var step := SyncPart(h.subs, cfg, chat, cmds[0], h.running);
      assert cmds[0] in cmds;
      assert StartMonitor !in cmds[1..] && StopMonitor !in cmds[1..] by {
        forall k | 0 <= k < |cmds[1..]| ensures cmds[1..][k] != StartMonitor && cmds[1..][k] != StopMonitor {
          assert cmds[1..][k] == cmds[k + 1];
        }
      }
      RunAllWithoutMonitorCommands(Handled(step.subs, h.replies + step.replies, h.calls + step.calls, step.running), cfg, chat, cmds[1..]);
    }
  }

  lemma {:induction false} RunAllSplit(h: Handled, cfg: BotConfig, chat: int, a: seq<Command>, b: seq<Command>)
    ensures RunAll(h, cfg, chat, a + b) == RunAll(RunAll(h, cfg, chat, a), cfg, chat, b)
    decreases |a|
  {
    if |a| > 0 {
      var step := SyncPart(h.subs, cfg, chat, a[0], h.running);
      assert (a + b)[0] == a[0] && (a + b)[1..] == a[1..] + b;
      RunAllSplit(Handled(step.subs, h.replies + step.replies, h.calls + step.calls, step.running), cfg, chat, a[1..], b);
    } else {
      assert a + b == b;
    }
  }

  lemma FiringCons(text: string, cmds: seq<Command>)
    requires |cmds| > 0
    ensures Firing(text, cmds) == (if Contains(text, Pattern(cmds[0])) then [cmds[0]] else []) + Firing(text, cmds[1..])
  {
  }

  /** The handlers firing among `a + b` are those among `a`, then those among `b`. */
  lemma {:induction false} FiringAppend(text: string, a: seq<Command>, b: seq<Command>)
    ensures Firing(text, a + b) == Firing(text, a) + Firing(text, b)
    decreases |a|
  {
    if |a| > 0 {
      var h := if Contains(text, Pattern(a[0])) then [a[0]] else [];
      assert (a + b)[0] == a[0] && (a + b)[1..] == a[1..] + b;
      FiringCons(text, a + b);
      FiringCons(text, a);
      FiringAppend(text, a[1..], b);
      assert Firing(text, a + b) == h + (Firing(text, a[1..]) + Firing(text, b));
    } else {
      assert a + b == b;
    }
  }

  /** A text containing `/stop` fires the `/start` handler or not, then the
      `/stop` handler, then some of the ones registered after it. */
  lemma FiringAroundStop(text: string)
    requires Contains(text, Pattern(Stop))
    ensures Firing(text, Registered)
         == (if Contains(text, Pattern(Start)) then [Start] else []) + ([Stop] + Firing(text, Registered[2..]))
  {
    var rest := Registered[1..];
    assert Registered[0] == Start && rest[0] == Stop && rest[1..] == Registered[2..];
    FiringCons(text, Registered);
    FiringCons(text, rest);
  }

  /** Running `/stop` removes the chat. */
  lemma RunStopRemoves(h: Handled, cfg: BotConfig, chat: int)
    ensures chat !in RunAll(h, cfg, chat, [Stop]).subs.chats
  {
    assert [Stop][1..] == [];
  }

  /** As written, a text containing `/stop` leaves its sender subscribed
      exactly when it also contains `/start` and the next message is the
      password: the `/stop` handler removes the chat at once, and only the
      deferred `/start` password check can add it back. */
  lemma StopInTextAsWritten(subs: Subscribers, cfg: BotConfig, chat: int, text: string, reply: Option<string>, running: bool)
    requires Contains(text, Pattern(Stop))
    ensures chat in OnTextAsWritten(subs, cfg, chat, text, reply, running).subs.chats
        <==> Contains(text, Pattern(Start)) && reply == Some(cfg.password)
  {
    var front := if Contains(text, Pattern(Start)) then [Start] else [];
    var back := Firing(text, Registered[2..]);
    FiringAroundStop(text);
    var h0 := Handled(subs, [], [], running);
    RunAllSplit(h0, cfg, chat, front, [Stop] + back);
    var h1 := RunAll(h0, cfg, chat, front);
    RunAllSplit(h1, cfg, chat, [Stop], back);
    var h2 := RunAll(h1, cfg, chat, [Stop]);
    RunStopRemoves(h1, cfg, chat);
    RunAllNeverAdds(h2, cfg, chat, back);
  }

  /** `/stopmonitor` contains `/stop` but not `/start`. */
  lemma StopMonitorPatterns()
    ensures Contains(Pattern(StopMonitor), Pattern(Stop))
    ensures !Contains(Pattern(StopMonitor), Pattern(Start))
  {
    assert IsPrefix(Pattern(Stop), Pattern(StopMonitor));
    assert Pattern(Start)[3] == 'a';
    assert 'a' !in Pattern(StopMonitor);
    MissingCharNotContained(Pattern(StopMonitor), Pattern(Start), 3);
  }

  /** As written, a subscriber who sends `/stopmonitor` is unsubscribed, even
      though the command only asks to stop the monitor. */
  lemma StopMonitorUnsubscribesAsWritten(subs: Subscribers, cfg: BotConfig, chat: int, text: string, reply: Option<string>, running: bool)
    requires text == Pattern(StopMonitor)
    requires chat in subs.chats
    ensures chat !in OnTextAsWritten(subs, cfg, chat, text, reply, running).subs.chats
  {
    StopMonitorPatterns();
    StopInTextAsWritten(subs, cfg, chat, text, reply, running);
  }

  /** The handlers registered before `/startmonitor`, and after `/stopmonitor`. */
  lemma RegisteredAroundMonitorCommands()
    ensures Registered == [Start, Stop, Status, Debug, MonitorStatus] + [StartMonitor, StopMonitor] + [Menu, Reset]
  {
  }

  /** A text naming both monitor commands fires both, adjacent, wherever the
      pair sits among the candidates. */
  lemma FiringAroundMonitorCommands(text: string, pre: seq<Command>, post: seq<Command>)
    requires Contains(text, Pattern(StartMonitor)) && Contains(text, Pattern(StopMonitor))
    ensures Firing(text, pre + [StartMonitor, StopMonitor] + post)
         == Firing(text, pre) + [StartMonitor, StopMonitor] + Firing(text, post)
  {
    FiringAppend(text, pre + [StartMonitor, StopMonitor], post);
    FiringAppend(text, pre, [StartMonitor, StopMonitor]);
    FiringCons(text, [StartMonitor, StopMonitor]);
    FiringCons(text, [StopMonitor]);
    assert [StartMonitor, StopMonitor][1..] == [StopMonitor] && [StopMonitor][1..] == [];
  }

  /** The two monitor handlers in a row: the second sees the first's `isRunning`. */
  lemma RunMonitorPair(h: Handled, cfg: BotConfig, chat: int)
    ensures RunAll(h, cfg, chat, [StartMonitor, StopMonitor]).calls
         == h.calls + (if h.running then [] else [CallStart]) + [CallStop]
    ensures !RunAll(h, cfg, chat, [StartMonitor, StopMonitor]).running
  {
    assert [StartMonitor, StopMonitor][1..] == [StopMonitor] && [StopMonitor][1..] == [];
  }

  /** Handlers around the monitor pair that are not monitor commands leave
      the pair's calls alone. */
  lemma MonitorPairCalls(h: Handled, cfg: BotConfig, chat: int, text: string, pre: seq<Command>, post: seq<Command>)
    requires Contains(text, Pattern(StartMonitor)) && Contains(text, Pattern(StopMonitor))
    requires StartMonitor !in pre && StopMonitor !in pre
    requires StartMonitor !in post && StopMonitor !in post
    ensures RunAll(h, cfg, chat, Firing(text, pre + [StartMonitor, StopMonitor] + post)).calls
         == h.calls + (if h.running then [] else [CallStart]) + [CallStop]
    ensures !RunAll(h, cfg, chat, Firing(text, pre + [StartMonitor, StopMonitor] + post)).running
  {
    FiringAroundMonitorCommands(text, pre, post);
    var fpre := Firing(text, pre);
    var fpost := Firing(text, post);
    FiringIsSubsequence(text, pre);
    FiringIsSubsequence(text, post);
    RunAllSplit(h, cfg, chat, fpre + [StartMonitor, StopMonitor], fpost);
    RunAllSplit(h, cfg, chat, fpre, [StartMonitor, StopMonitor]);
    var h1 := RunAll(h, cfg, chat, fpre);
    RunAllWithoutMonitorCommands(h, cfg, chat, fpre);
    var h2 := RunAll(h1, cfg, chat, [StartMonitor, StopMonitor]);
    RunMonitorPair(h1, cfg, chat);
    RunAllWithoutMonitorCommands(h2, cfg, chat, fpost);
  }

  /** As written, a text naming both `/startmonitor` and `/stopmonitor` runs
      both handlers in that order: `startMonitoring` sets `isRunning` before
      the `/stopmonitor` handler reads it, so the monitor is stopped again at
      once, whatever its state before. */
  lemma StartAndStopMonitorAsWritten(subs: Subscribers, cfg: BotConfig, chat: int, text: string, reply: Option<string>, running: bool)
    requires Contains(text, Pattern(StartMonitor)) && Contains(text, Pattern(StopMonitor))
    ensures OnTextAsWritten(subs, cfg, chat, text, reply, running).calls
         == (if running then [] else [CallStart]) + [CallStop]
    ensures !OnTextAsWritten(subs, cfg, chat, text, reply, running).running
  {
    var h0 := Handled(subs, [], [], running);
    RegisteredMonitorCalls(h0, cfg, chat, text);
    PasswordStepKeepsCalls(subs, cfg, chat, text, reply, running);
  }

  /** The deferred password check makes no monitor call. */
  lemma PasswordStepKeepsCalls(subs: Subscribers, cfg: BotConfig, chat: int, text: string, reply: Option<string>, running: bool)
    ensures var h := RunRegistered(Handled(subs, [], [], running), cfg, chat, text);
      var r := OnTextAsWritten(subs, cfg, chat, text, reply, running);
      r.calls == h.calls && r.running == h.running
  {
  }

  /** The registered handlers run the monitor pair as `MonitorPairCalls` says. */
  lemma RegisteredMonitorCalls(h: Handled, cfg: BotConfig, chat: int, text: string)
    requires Contains(text, Pattern(StartMonitor)) && Contains(text, Pattern(StopMonitor))
    ensures RunRegistered(h, cfg, chat, text).calls
         == h.calls + (if h.running then [] else [CallStart]) + [CallStop]
    ensures !RunRegistered(h, cfg, chat, text).running
  {
    RegisteredAroundMonitorCommands();
    MonitorPairCalls(h, cfg, chat, text, [Start, Stop, Status, Debug, MonitorStatus], [Menu, Reset]);
  }

  /** Every firing handler is one of the candidates. */
  lemma {:induction false} FiringIsSubsequence(text: string, cmds: seq<Command>)
    ensures forall c :: c in Firing(text, cmds) ==> c in cmds
    decreases |cmds|
  {
    if |cmds| > 0 {
      FiringIsSubsequence(text, cmds[1..]);
    }
  }

  /** The command a message names, if it is one of the bot's commands. */
  function CommandOf(text: string): (r: Option<Command>)
    ensures r.Some? <==> exists c :: c in AllCommands && CommandWord(text) == Pattern(c)
    ensures r.Some? ==> CommandWord(text) == Pattern(r.value)
  {
    var w := CommandWord(text);
    if w == "/start" then Some(Start)
    else if w == "/stop" then Some(Stop)
    else if w == "/status" then Some(Status)
    else if w == "/debug" then Some(Debug)
    else if w == "/monitorstatus" then Some(MonitorStatus)
    else if w == "/startmonitor" then Some(StartMonitor)
    else if w == "/stopmonitor" then Some(StopMonitor)
    else if w == "/menu" then Some(Menu)
    else if w == "/reset" then Some(Reset)
    else None
  }

  /** `CommandOf` picks the one intended handler. */
  lemma CommandOfIsTheHandler(text: string)
    ensures CommandOf(text).Some? ==> Handlers(text) == {CommandOf(text).value}
    ensures CommandOf(text).None? ==> Handlers(text) == {}
  {
  }

  /** A text message under the intended dispatch: the named command's handler
      alone runs; any other text changes nothing. */
  function OnText(subs: Subscribers, cfg: BotConfig, chat: int, text: string, reply: Option<string>, running: bool): (r: Handled)
    ensures forall x :: x in r.subs.chats && x != chat ==> x in subs.chats
    ensures CommandOf(text).None? ==> r.subs == subs && r.replies == [] && r.calls == []
    ensures CommandOf(text) == Some(Stop) ==> chat !in r.subs.chats
    ensures r.subs != subs ==> Persisted(r.subs)
  {
    match CommandOf(text)
    case None => Handled(subs, [], [], running)
    case Some(c) => RunCommand(subs, cfg, chat, c, reply, running)
  }

  /** Under the intended dispatch a message whose command is `/stopmonitor`
      leaves the subscribers alone and only stops a running monitor. */
  lemma StopMonitorKeepsSubscriptions(subs: Subscribers, cfg: BotConfig, chat: int, text: string, reply: Option<string>, running: bool)
    requires CommandWord(text) == Pattern(StopMonitor)
    ensures OnText(subs, cfg, chat, text, reply, running).subs == subs
    ensures OnText(subs, cfg, chat, text, reply, running).calls == (if running then [CallStop] else [])
  {
  }

  /** The message `/stopmonitor` itself names that command. */
  lemma StopMonitorMessageNamesStopMonitor()
    ensures CommandWord("/stopmonitor") == Pattern(StopMonitor)
  {
    var text := "/stopmonitor";
    assert forall i :: 0 <= i < |text| ==> text[i] != ' ';
    CommandWordOfWord(text);
  }

  // ---------------------------------------------------------------------------
  // Menu buttons (`callback_query`)

  /** A button press: the chat of the message it is attached to (None when the
      query carries no message) and its data. */
  function OnButton(subs: Subscribers, cfg: BotConfig, chat: Option<int>, data: Option<string>, running: bool): (r: Handled)
    ensures chat.None? ==> r == Handled(subs, [], [], running)
    ensures data == Some("/start") ==> r.subs == subs && r.calls == []
    ensures chat.Some? && data == Some("/stop") ==> r.subs == SaveAs(subs.chats - {chat.value})
    ensures chat.Some? && data == Some("/reset") ==>
      r.subs.chats == (if IsAdmin(cfg, chat.value) then {} else subs.chats)
    ensures r.subs != subs ==> Persisted(r.subs)
  {
    match chat
    case None => Handled(subs, [], [], running)
    case Some(id) =>
      match data
      case Some("/start") => Handled(subs, [PasswordPrompt], [], running)
      case Some("/stop") => RunCommand(subs, cfg, id, Stop, None, running)
      case Some("/status") => RunCommand(subs, cfg, id, Status, None, running)
      case Some("/monitorstatus") => RunCommand(subs, cfg, id, MonitorStatus, None, running)
      case Some("/startmonitor") => RunCommand(subs, cfg, id, StartMonitor, None, running)
      case Some("/stopmonitor") => RunCommand(subs, cfg, id, StopMonitor, None, running)
      case Some("/debug") => RunCommand(subs, cfg, id, Debug, None, running)
      case Some("/reset") => RunCommand(subs, cfg, id, Reset, None, running)
      case _ => Handled(subs, [UnknownCommand], [], running)
  }

  /** Monitor control from either surface: a start request while running and a
      stop request while stopped call nothing. */
  lemma MonitorCallsAreGuarded(subs: Subscribers, cfg: BotConfig, chat: int, text: string, reply: Option<string>, running: bool)
    ensures running && CommandOf(text) == Some(StartMonitor) ==> OnText(subs, cfg, chat, text, reply, running).calls == []
    ensures !running && CommandOf(text) == Some(StopMonitor) ==> OnText(subs, cfg, chat, text, reply, running).calls == []
    ensures running ==> OnButton(subs, cfg, Some(chat), Some("/startmonitor"), running).calls == []
    ensures !running ==> OnButton(subs, cfg, Some(chat), Some("/stopmonitor"), running).calls == []
  {
  }

  // ---------------------------------------------------------------------------
  // Delivery (`sendNotification`)

  /** What `sendMessage`/`sendPhoto` did for one chat: delivered, or threw; the
      message is absent when the thrown value is not an `Error`. */
  datatype Delivery = Delivered | Rejected(error: Option<string>)

  const PruneMarkers: seq<string> := ["chat not found", "bot was blocked"]

  /** The failure says the chat is gone or has blocked the bot. */
  predicate Prunes(d: Delivery) {
    d.Rejected? && d.error.Some? && ContainsAny(d.error.value, PruneMarkers)
  }

  /** Chats pruned among the first `n` deliveries. */
  function PrunedUpTo(order: seq<int>, results: seq<Delivery>, n: nat): set<int>
    requires n <= |order| && n <= |results|
    decreases n
  {
    if n == 0 then {}
    else PrunedUpTo(order, results, n - 1) + (if Prunes(results[n - 1]) then {order[n - 1]} else {})
  }

  lemma {:induction false} PrunedUpToMembers(order: seq<int>, results: seq<Delivery>, n: nat, x: int)
    requires n <= |order| && n <= |results|
    ensures x in PrunedUpTo(order, results, n) <==> exists i :: 0 <= i < n && order[i] == x && Prunes(results[i])
    decreases n
  {
    if n > 0 {
      PrunedUpToMembers(order, results, n - 1, x);
    }
  }

  function FailuresIn(results: seq<Delivery>): nat
    decreases |results|
  {
    if |results| == 0 then 0
    else FailuresIn(results[..|results| - 1]) + (if results[|results| - 1].Rejected? then 1 else 0)
  }

  /** `sendNotification`: one delivery per subscriber in the set's iteration
      order `order`; a failure that says the chat is gone or blocked the bot
      removes that chat and saves, every other outcome keeps it. */
  method SendNotification(subs: Subscribers, order: seq<int>, results: seq<Delivery>)
    returns (r: Subscribers, failures: nat)
    requires |order| == |results|
    requires forall i :: 0 <= i < |order| ==> order[i] in subs.chats
    requires forall x :: x in subs.chats ==> x in order
    requires forall i, j :: 0 <= i < j < |order| ==> order[i] != order[j]
    ensures forall i :: 0 <= i < |order| ==> (order[i] in r.chats <==> !Prunes(results[i]))
    ensures r.chats <= subs.chats
    ensures r.saved == (if r.chats == subs.chats then subs.saved else r.chats)
    ensures failures == FailuresIn(results)
  {
    r := subs;
    failures := 0;
    var i := 0;
    while i < |order|
      invariant 0 <= i <= |order|
      invariant PrunedUpTo(order, results, i) <= subs.chats
      invariant r.chats == subs.chats - PrunedUpTo(order, results, i)
      invariant r.saved == (if PrunedUpTo(order, results, i) == {} then subs.saved else r.chats)
      invariant failures == FailuresIn(results[..i])
    {
      assert results[..i + 1][..i] == results[..i];
      if results[i].Rejected? {
        failures := failures + 1;
        if Prunes(results[i]) {
          r := SaveAs(r.chats - {order[i]});
        }
      }
      i := i + 1;
    }
    assert results[..|order|] == results;
    forall k | 0 <= k < |order|
      ensures order[k] in r.chats <==> !Prunes(results[k])
    {
      PrunedUpToMembers(order, results, |order|, order[k]);
    }
  }
}

=== FILE: poll.dfy ===
/** `processConvenio` of src/services/monitor.service.ts: select the current
    category, solve the captcha, submit, and read the resulting page. A page
    saying the code was invalid is inconclusive (null); a page without the
    "no withdrawals yet" marker means a slot is open; otherwise there is none.
    Any exception inside yields null. */
module Poll {
  import opened Wrappers
  import opened Text
  import opened MonitorTypes

  const InvalidCodeMarker: string := "Código inválido"
  const NoVacancyMarker: string := "Nenhuma desistência até o momento"

  /** The outcome of one poll: Available and NotAvailable carry the polled
      category. */
  datatype CycleResult = Inconclusive | Available(category: Category) | NotAvailable(category: Category)

  /** The marker tests on the submitted page, in the source's priority order. */
  function ClassifyPage(content: string, category: Category): (r: CycleResult)
    ensures r.Inconclusive? <==> Contains(content, InvalidCodeMarker)
    ensures r.Available? <==> !Contains(content, InvalidCodeMarker) && !Contains(content, NoVacancyMarker)
    ensures r.NotAvailable? <==> !Contains(content, InvalidCodeMarker) && Contains(content, NoVacancyMarker)
    ensures !r.Inconclusive? ==> r.category == category
  {
    if Contains(content, InvalidCodeMarker) then Inconclusive
    else if !Contains(content, NoVacancyMarker) then Available(category)
    else NotAvailable(category)
  }

  /** What the browser did during one call. */
  datatype PollPage =
      /** Selecting, solving, filling, submitting or reading the page threw. */
    | PollThrew
      /** The submitted page's content; whether the full-page screenshot taken
          for an open slot succeeded; whether the "SOLICITAR SERVIÇO" click
          succeeded. */
    | PollRendered(content: string, screenshotOk: bool, claimOk: bool)

  /** `{ hasUpdates, city }`. */
  datatype PollResult = PollResult(hasUpdates: bool, city: string)

  /** The returned value (None for null), the notifications sent, and the
      monitor's `lastStatus` afterwards. */
  datatype PollOutcome = PollOutcome(result: Option<PollResult>, effects: seq<Effect>, lastStatus: Option<string>)

  function NoVacancyStatus(category: Category): string {
    "Nenhuma desistência em " + category.City()
  }

  function ProcessConvenio(category: Category, page: PollPage, lastStatus: Option<string>): (r: PollOutcome)
    ensures r.result.None? <==>
      page.PollThrew?
      || Contains(page.content, InvalidCodeMarker)
      || (ClassifyPage(page.content, category).Available? && !page.screenshotOk)
    ensures r.result.Some? ==> r.result.value.city == category.City()
    ensures r.result.Some? ==>
      (r.result.value.hasUpdates <==> ClassifyPage(page.content, category) == Available(category))
    ensures r.lastStatus != lastStatus ==>
      page.PollRendered? && ClassifyPage(page.content, category) == NotAvailable(category)
    ensures page.PollRendered? && ClassifyPage(page.content, category) == NotAvailable(category) ==>
      r.lastStatus == Some(NoVacancyStatus(category))
    ensures r.effects != [] <==> r.result.Some? && r.result.value.hasUpdates
    ensures r.result.Some? && r.result.value.hasUpdates ==>
      r.effects == [Notify(NewService(category))] + (if page.claimOk then [] else [Notify(ClaimFailed)])
  {
    match page
    case PollThrew => PollOutcome(None, [], lastStatus)
    case PollRendered(content, screenshotOk, claimOk) =>
      match ClassifyPage(content, category)
      case Inconclusive => PollOutcome(None, [], lastStatus)
      case Available(_) =>
        if !screenshotOk then PollOutcome(None, [], lastStatus)
        else
          var claim := if claimOk then [] else [Notify(ClaimFailed)];
          PollOutcome(Some(PollResult(true, category.City())), [Notify(NewService(category))] + claim, lastStatus)
      case NotAvailable(_) =>
        PollOutcome(Some(PollResult(false, category.City())), [], Some(NoVacancyStatus(category)))
  }
}

=== FILE: retry.dfy ===
/** `retryOperation` of src/services/monitor.service.ts: run an operation up
    to `maxRetries` times, classify each failure's message, tear the browser
    down and bring it back up after a fatal-browser failure, send a
    connection alert after a network failure, and rethrow the last error
    once every attempt has failed.

    The operation is given by the outcomes of its successive invocations;
    errors thrown by `close()` and `initialize()` during recovery are swallowed
    by the source, so only the calls are recorded. */
module Retry {
  import opened Wrappers
  import opened Text
  import opened MonitorTypes

  /** Substrings that mark the browser, context or page as unusable. */
  const FatalMarkers: seq<string> := [
    "Target page, context or browser has been closed",
    "Executable doesn't exist",
    "Disconnected",
    "Browser has been closed"
  ]

  /** Substrings that mark a network-level failure. */
  const NetworkMarkers: seq<string> := ["net::", "ECONNREFUSED", "ETIMEDOUT"]

  /** The two classes are decided independently: one message may be in both. */
  predicate IsFatalBrowserError(message: string) {
    ContainsAny(message, FatalMarkers)
  }

  predicate IsNetworkError(message: string) {
    ContainsAny(message, NetworkMarkers)
  }

  /** What one invocation of the operation did: returned a value, or threw an
      error whose message (or `String(error)`) is given. */
  datatype Outcome<+T> = Ok(value: T) | Err(message: string)

  /** What `retryOperation` did: returned the operation's value, or threw the
      last error (`undefined` when no attempt was made). */
  datatype RetryResult<+T> = Returned(value: T) | Rethrown(lastError: Option<string>)

  /** The recovery and alerting after attempt number `attempt` failed with
      `message`: close then initialize for a fatal error, then one alert for a
      network error. */
  function AttemptEffects(attempt: int, maxRetries: int, message: string, category: Category): seq<Effect> {
    (if IsFatalBrowserError(message) then [CloseSession, InitializeSession] else [])
    + (if IsNetworkError(message) then [Notify(ConnectionProblem(attempt, maxRetries, message, category))] else [])
  }

  predicate AllFailed<T>(outcomes: seq<Outcome<T>>) {
    forall i :: 0 <= i < |outcomes| ==> outcomes[i].Err?
  }

  /** The effects of a run of attempts numbered 1, 2, ...; a successful
      attempt adds nothing. */
  function FailureTrace<T>(outcomes: seq<Outcome<T>>, maxRetries: int, category: Category): seq<Effect>
    decreases |outcomes|
  {
    if |outcomes| == 0 then []
    else
      FailureTrace(outcomes[..|outcomes| - 1], maxRetries, category)
      + OutcomeEffects(|outcomes|, maxRetries, outcomes[|outcomes| - 1], category)
  }

  /** The effects of attempt number `attempt`: none when it returned. */
  function OutcomeEffects<T>(attempt: int, maxRetries: int, o: Outcome<T>, category: Category): seq<Effect> {
    match o
    case Ok(_) => []
    case Err(m) => AttemptEffects(attempt, maxRetries, m, category)
  }

  /** One more attempt appends its effects to the trace. */
  lemma FailureTraceSnoc<T>(before: seq<Outcome<T>>, o: Outcome<T>, maxRetries: int, category: Category)
    ensures FailureTrace(before + [o], maxRetries, category)
         == FailureTrace(before, maxRetries, category) + OutcomeEffects(|before| + 1, maxRetries, o, category)
  {
    assert (before + [o])[..|before|] == before;
  }

  /** A failed attempt extends the failed prefix and its trace. */
  lemma FailedAttempt<T>(outcomes: seq<Outcome<T>>, n: nat, maxRetries: int, category: Category)
    requires n < |outcomes| && AllFailed(outcomes[..n]) && outcomes[n].Err?
    ensures AllFailed(outcomes[..n + 1])
    ensures outcomes[..n + 1][n] == outcomes[n]
    ensures FailureTrace(outcomes[..n + 1], maxRetries, category)
         == FailureTrace(outcomes[..n], maxRetries, category) + OutcomeEffects(n + 1, maxRetries, outcomes[n], category)
  {
    assert outcomes[..n + 1] == outcomes[..n] + [outcomes[n]];
    FailureTraceSnoc(outcomes[..n], outcomes[n], maxRetries, category);
  }

  /** Only one position can be the first success. */
  lemma FirstSuccessIsUnique<T>(outcomes: seq<Outcome<T>>, a: nat, b: nat)
    requires a < |outcomes| && b < |outcomes|
    requires AllFailed(outcomes[..a]) && outcomes[a].Ok?
    requires AllFailed(outcomes[..b]) && outcomes[b].Ok?
    ensures a == b
  {
  }

  /** A success after only failures is the first one within the bound. */
  lemma FirstSuccessAt<T>(outcomes: seq<Outcome<T>>, maxRetries: int, a: nat)
    requires a < maxRetries <= |outcomes|
    requires AllFailed(outcomes[..a]) && outcomes[a].Ok?
    ensures exists k :: 0 <= k < maxRetries && outcomes[k].Ok?
    ensures forall m :: 0 <= m < maxRetries && AllFailed(outcomes[..m]) && outcomes[m].Ok? ==> m == a
  {
    forall m | 0 <= m < maxRetries && AllFailed(outcomes[..m]) && outcomes[m].Ok?
      ensures m == a
    {
      FirstSuccessIsUnique(outcomes, m, a);
    }
  }

  /** When the first `n` attempts all failed, none of them succeeded. */
  lemma PrefixFailed<T>(outcomes: seq<Outcome<T>>, n: int)
    requires 0 <= n <= |outcomes| && AllFailed(outcomes[..n])
    ensures !exists k :: 0 <= k < n && outcomes[k].Ok?
  {
    forall k | 0 <= k < n
      ensures outcomes[k].Err?
    {
      assert outcomes[k] == outcomes[..n][k];
    }
  }

  /** The attempt loop of `retryOperation`: `bound` attempts at most, stopping
      at the first success; it reports the last error seen. */
  method Attempts<T>(outcomes: seq<Outcome<T>>, bound: nat, maxRetries: int, category: Category)
    returns (r: RetryResult<T>, invocations: nat, trace: seq<Effect>)
    requires bound <= |outcomes|
    ensures invocations <= bound
    ensures r.Returned? ==>
      && 1 <= invocations
      && outcomes[invocations - 1] == Ok(r.value)
      && AllFailed(outcomes[..invocations - 1])
      && trace == FailureTrace(outcomes[..invocations - 1], maxRetries, category)
    ensures r.Rethrown? ==>
      && invocations == bound
      && AllFailed(outcomes[..invocations])
      && r.lastError == (if invocations == 0 then None else Some(outcomes[invocations - 1].message))
      && trace == FailureTrace(outcomes[..invocations], maxRetries, category)
  {
    var lastError: Option<string> := None;
    invocations := 0;
    trace := [];
    while invocations < bound
      invariant invocations <= bound
      invariant AllFailed(outcomes[..invocations])
      invariant lastError == if invocations == 0 then None else Some(outcomes[invocations - 1].message)
      invariant trace == FailureTrace(outcomes[..invocations], maxRetries, category)
    {
      var attempt := invocations + 1;
      var outcome := outcomes[invocations];
      if outcome.Ok? {
        r := Returned(outcome.value);
        invocations := attempt;
        return;
      }
      FailedAttempt(outcomes, invocations, maxRetries, category);
      lastError := Some(outcome.message);
      trace := trace + OutcomeEffects(attempt, maxRetries, outcome, category);
      invocations := attempt;
    }
    r := Rethrown(lastError);
  }

  /** `retryOperation`: at most `maxRetries` invocations, stopping at the
      first success. The `outcomes` give the operation's behaviour on each
      invocation it may get. */
  method RetryOperation<T>(outcomes: seq<Outcome<T>>, maxRetries: int, category: Category)
    returns (r: RetryResult<T>, invocations: nat, trace: seq<Effect>)
    requires maxRetries <= |outcomes|
    ensures invocations <= if maxRetries < 0 then 0 else maxRetries
    ensures r.Returned? <==> exists k :: 0 <= k < maxRetries && outcomes[k].Ok?
    ensures r.Returned? ==>
      && 1 <= invocations
      && outcomes[invocations - 1] == Ok(r.value)
      && AllFailed(outcomes[..invocations - 1])
      && trace == FailureTrace(outcomes[..invocations - 1], maxRetries, category)
    ensures r.Rethrown? ==>
      && invocations == (if maxRetries < 0 then 0 else maxRetries)
      && AllFailed(outcomes[..invocations])
      && r.lastError == (if invocations == 0 then None else Some(outcomes[invocations - 1].message))
      && trace == FailureTrace(outcomes[..invocations], maxRetries, category)
    ensures forall m :: 0 <= m < maxRetries && AllFailed(outcomes[..m]) && outcomes[m].Ok? ==>
      r == Returned(outcomes[m].value) && invocations == m + 1
  {
    var bound := if maxRetries < 0 then 0 else maxRetries;
    r, invocations, trace := Attempts(outcomes, bound, maxRetries, category);
    if r.Returned? {
      FirstSuccessAt(outcomes, maxRetries, invocations - 1);
    } else {
      PrefixFailed(outcomes, bound);
    }
  }

  /** The number of failed attempts whose message is fatal. */
  function FatalFailures<T>(outcomes: seq<Outcome<T>>): nat
    decreases |outcomes|
  {
    if |outcomes| == 0 then 0
    else
      var last := outcomes[|outcomes| - 1];
      FatalFailures(outcomes[..|outcomes| - 1]) + (if last.Err? && IsFatalBrowserError(last.message) then 1 else 0)
  }

  /** The recovery of one failed attempt: one close and one initialize iff
      the error is fatal. */
  lemma AttemptRecoveries(attempt: int, maxRetries: int, m: string, category: Category)
    ensures CountEffect(AttemptEffects(attempt, maxRetries, m, category), CloseSession) == (if IsFatalBrowserError(m) then 1 else 0)
    ensures CountEffect(AttemptEffects(attempt, maxRetries, m, category), InitializeSession) == (if IsFatalBrowserError(m) then 1 else 0)
  {
    var f: seq<Effect> := if IsFatalBrowserError(m) then [CloseSession, InitializeSession] else [];
    var n: seq<Effect> := if IsNetworkError(m) then [Notify(ConnectionProblem(attempt, maxRetries, m, category))] else [];
    CountEffectAppend(f, n, CloseSession);
    CountEffectAppend(f, n, InitializeSession);
    if IsFatalBrowserError(m) {
      assert f[..1] == [CloseSession];
    }
    if IsNetworkError(m) {
      assert n[..0] == [];
    }
  }

  /** Exactly one teardown and one re-initialisation per fatal failure, the
      final one included, and none for any other failure. */
  lemma {:induction false} OneRecoveryPerFatalFailure<T>(outcomes: seq<Outcome<T>>, maxRetries: int, category: Category)
    ensures CountEffect(FailureTrace(outcomes, maxRetries, category), CloseSession) == FatalFailures(outcomes)
    ensures CountEffect(FailureTrace(outcomes, maxRetries, category), InitializeSession) == FatalFailures(outcomes)
    decreases |outcomes|
  {
    if |outcomes| > 0 {
      var front := outcomes[..|outcomes| - 1];
      var last := outcomes[|outcomes| - 1];
      OneRecoveryPerFatalFailure(front, maxRetries, category);
      var before := FailureTrace(front, maxRetries, category);
      var tail := OutcomeEffects(|outcomes|, maxRetries, last, category);
      assert FailureTrace(outcomes, maxRetries, category) == before + tail;
      CountEffectAppend(before, tail, CloseSession);
      CountEffectAppend(before, tail, InitializeSession);
      if last.Err? {
        AttemptRecoveries(|outcomes|, maxRetries, last.message, category);
      }
    }
  }

  /** The number of failed attempts whose message is network-class. */
  function NetworkFailures<T>(outcomes: seq<Outcome<T>>): nat
    decreases |outcomes|
  {
    if |outcomes| == 0 then 0
    else
      var last := outcomes[|outcomes| - 1];
      NetworkFailures(outcomes[..|outcomes| - 1]) + (if last.Err? && IsNetworkError(last.message) then 1 else 0)
  }

  /** The alerts in a retry trace: one connection alert per network failure,
      naming that attempt's number and error. */
  function Alerts(trace: seq<Effect>): seq<Notice>
    decreases |trace|
  {
    if |trace| == 0 then []
    else Alerts(trace[..|trace| - 1]) + (if trace[|trace| - 1].Notify? then [trace[|trace| - 1].notice] else [])
  }

  lemma {:induction false} AlertsAppend(a: seq<Effect>, b: seq<Effect>)
    ensures Alerts(a + b) == Alerts(a) + Alerts(b)
    decreases |b|
  {
    if |b| == 0 {
      assert a + b == a;
    } else {
      assert (a + b)[..|a + b| - 1] == a + b[..|b| - 1];
      AlertsAppend(a, b[..|b| - 1]);
    }
  }

  /** The alerts of one failed attempt: a connection alert iff the error is
      network-class. */
  lemma AttemptAlerts(attempt: int, maxRetries: int, m: string, category: Category)
    ensures Alerts(AttemptEffects(attempt, maxRetries, m, category))
         == (if IsNetworkError(m) then [ConnectionProblem(attempt, maxRetries, m, category)] else [])
  {
    var f: seq<Effect> := if IsFatalBrowserError(m) then [CloseSession, InitializeSession] else [];
    var n: seq<Effect> := if IsNetworkError(m) then [Notify(ConnectionProblem(attempt, maxRetries, m, category))] else [];
    AlertsAppend(f, n);
    if IsFatalBrowserError(m) {
      assert f[..1] == [CloseSession];
      AlertsAppend([CloseSession], [InitializeSession]);
    }
    if IsNetworkError(m) {
      assert n[..0] == [];
    }
  }

  /** The alerts of a trace extended by attempt number `|outcomes|`. */
  lemma AlertsStep<T>(outcomes: seq<Outcome<T>>, maxRetries: int, category: Category)
    requires |outcomes| > 0
    ensures var last := outcomes[|outcomes| - 1];
      Alerts(FailureTrace(outcomes, maxRetries, category))
        == Alerts(FailureTrace(outcomes[..|outcomes| - 1], maxRetries, category))
           + (if last.Err? && IsNetworkError(last.message)
              then [ConnectionProblem(|outcomes|, maxRetries, last.message, category)] else [])
  {
    var last := outcomes[|outcomes| - 1];
    var before := FailureTrace(outcomes[..|outcomes| - 1], maxRetries, category);
    var tail := OutcomeEffects(|outcomes|, maxRetries, last, category);
    AlertsAppend(before, tail);
    if last.Err? {
      AttemptAlerts(|outcomes|, maxRetries, last.message, category);
    }
  }

  /** Exactly one notification per network-class failure. */
  lemma {:induction false} OneAlertPerNetworkFailure<T>(outcomes: seq<Outcome<T>>, maxRetries: int, category: Category)
    ensures |Alerts(FailureTrace(outcomes, maxRetries, category))| == NetworkFailures(outcomes)
    decreases |outcomes|
  {
    if |outcomes| > 0 {
      OneAlertPerNetworkFailure(outcomes[..|outcomes| - 1], maxRetries, category);
      AlertsStep(outcomes, maxRetries, category);
    }
  }

  /** Every alert a retry run sends is a connection-problem notice. */
  lemma {:induction false} AlertsAreConnectionProblems<T>(outcomes: seq<Outcome<T>>, maxRetries: int, category: Category)
    ensures forall i :: 0 <= i < |Alerts(FailureTrace(outcomes, maxRetries, category))| ==>
      Alerts(FailureTrace(outcomes, maxRetries, category))[i].ConnectionProblem?
    decreases |outcomes|
  {
    if |outcomes| > 0 {
      AlertsAreConnectionProblems(outcomes[..|outcomes| - 1], maxRetries, category);
      AlertsStep(outcomes, maxRetries, category);
    }
  }

  /** `initialize` as written, when every `chromium.launch` throws `message`:
      its body runs inside a `retryOperation` of `maxRetries` attempts, and the
      recovery from each fatal failure awaits `initialize` again before the
      loop may go on. `fuel` bounds the nesting depth: `None` means that no
      call returned within it, `Some(false)` that the wrapper threw and
      `initialize` caught it and answered false. */
  function InitializeAsWritten(message: string, maxRetries: nat, fuel: nat): (r: Option<bool>)
    ensures r.Some? ==> r == Some(false)
    ensures fuel == 0 ==> r.None?
    decreases fuel, 0, 0
  {
    if fuel == 0 then None
    else if LaunchLoopAsWritten(message, maxRetries, maxRetries, fuel - 1) then Some(false)
    else None
  }

  /** The last `left` attempts of that wrapper: true when the loop ran out and
      `throw lastError` was reached. */
  predicate LaunchLoopAsWritten(message: string, left: nat, maxRetries: nat, fuel: nat)
    decreases fuel, 1, left
  {
    if left == 0 then true
    else if IsFatalBrowserError(message) then
      InitializeAsWritten(message, maxRetries, fuel).Some? && LaunchLoopAsWritten(message, left - 1, maxRetries, fuel)
    else LaunchLoopAsWritten(message, left - 1, maxRetries, fuel)
  }

  /** As written, a launch that always fails fatally never lets `initialize`
      return, however deep the nesting is allowed to go. */
  lemma {:induction false} FatalLaunchNeverReturnsAsWritten(message: string, maxRetries: nat, fuel: nat)
    requires IsFatalBrowserError(message) && maxRetries >= 1
    ensures InitializeAsWritten(message, maxRetries, fuel).None?
    decreases fuel
  {
    if fuel > 0 {
      FatalLaunchNeverReturnsAsWritten(message, maxRetries, fuel - 1);
      assert !LaunchLoopAsWritten(message, maxRetries, maxRetries, fuel - 1);
    }
  }

  /** A launch failure that is not fatal does not nest: the wrapper gives up
      after its attempts and `initialize` answers false. */
  lemma {:induction false} OtherLaunchFailureGivesUpAsWritten(message: string, left: nat, maxRetries: nat, fuel: nat)
    requires !IsFatalBrowserError(message)
    ensures LaunchLoopAsWritten(message, left, maxRetries, fuel)
    ensures fuel >= 1 ==> InitializeAsWritten(message, maxRetries, fuel) == Some(false)
    decreases fuel, left
  {
    if left > 0 {
      OtherLaunchFailureGivesUpAsWritten(message, left - 1, maxRetries, fuel);
    }
    if fuel >= 1 {
      OtherLaunchFailureGivesUpAsWritten(message, maxRetries, maxRetries, fuel - 1);
    }
  }

  /** `n` invocations that all throw `message`. */
  function Repeated(message: string, n: nat): (outcomes: seq<Outcome<()>>)
    ensures |outcomes| == n
    ensures forall k :: 0 <= k < n ==> outcomes[k] == Err(message)
  {
    seq(n, _ => Err(message))
  }

  lemma {:induction false} RepeatedFailuresCount(message: string, n: nat)
    ensures AllFailed(Repeated(message, n))
    ensures FatalFailures(Repeated(message, n)) == if IsFatalBrowserError(message) then n else 0
    decreases n
  {
    var outcomes := Repeated(message, n);
    if n > 0 {
      RepeatedFailuresCount(message, n - 1);
      assert outcomes[..n - 1] == Repeated(message, n - 1);
    }
  }

  /** `initialize` with the recovery bounded, as the wrapper intends: when
      every launch throws `message`, it makes `maxRetries` attempts, brings
      the browser back once per attempt when the message is fatal, and
      answers false. */
  method InitializeBounded(message: string, maxRetries: nat, category: Category)
    returns (ok: bool, invocations: nat, trace: seq<Effect>)
    ensures !ok
    ensures invocations == maxRetries
    ensures CountEffect(trace, InitializeSession) == if IsFatalBrowserError(message) then maxRetries else 0
    ensures CountEffect(trace, CloseSession) == if IsFatalBrowserError(message) then maxRetries else 0
  {
    var outcomes := Repeated(message, maxRetries);
    var r;
    r, invocations, trace := RetryOperation(outcomes, maxRetries, category);
    ok := r.Returned?;
    RepeatedFailuresCount(message, maxRetries);
    assert outcomes[..invocations] == outcomes;
    OneRecoveryPerFatalFailure(outcomes, maxRetries, category);
  }
}

=== FILE: status.dfy ===
/** The status service of src/services/status.service.ts: an uptime rendered
    as days, hours and minutes, and two counters that only grow. Time is a
    whole number of seconds here. */
module Status {
  import opened Text

  const SecondsPerMinute: nat := 60
  const SecondsPerHour: nat := 60 * 60
  const SecondsPerDay: nat := 24 * 60 * 60

  datatype Uptime = Uptime(days: nat, hours: nat, minutes: nat)

  /** The three `Math.floor` terms of `formatUptime`. */
  function DecomposeUptime(seconds: nat): (u: Uptime)
    ensures u.hours < 24 && u.minutes < 60
    ensures u.days * SecondsPerDay + u.hours * SecondsPerHour + u.minutes * SecondsPerMinute <= seconds
    ensures seconds < u.days * SecondsPerDay + u.hours * SecondsPerHour + u.minutes * SecondsPerMinute + 60
  {
    var days := seconds / SecondsPerDay;
    var hours := (seconds % SecondsPerDay) / SecondsPerHour;
    var minutes := (seconds % SecondsPerHour) / SecondsPerMinute;
    SplitSeconds(seconds);
    Uptime(days, hours, minutes)
  }

  /** The day/hour/minute arithmetic behind `DecomposeUptime`. */
  lemma SplitSeconds(s: nat)
    ensures (s % 86400) / 3600 < 24 && (s % 3600) / 60 < 60
    ensures s == (s / 86400) * 86400 + ((s % 86400) / 3600) * 3600 + ((s % 3600) / 60) * 60 + s % 60
  {
    var d, r := s / 86400, s % 86400;
    var h, r2 := r / 3600, r % 3600;
    var m := r2 / 60;
    assert s == d * 86400 + r;
    assert r == h * 3600 + r2;
    assert r2 == m * 60 + r2 % 60;
    assert s == (d * 24 + h) * 3600 + r2;
    assert s % 3600 == r2 by {
      ModOfMultiplePlus(d * 24 + h, 3600, r2);
    }
    assert s % 60 == r2 % 60 by {
      assert s == ((d * 24 + h) * 60 + m) * 60 + r2 % 60;
      ModOfMultiplePlus((d * 24 + h) * 60 + m, 60, r2 % 60);
    }
  }

  lemma MulGap(a: int, b: int, k: int)
    requires a < b && k > 0
    ensures a * k + k <= b * k
  {
    var d := b - a - 1;
    assert d * k >= 0;
    assert b * k == (a + d + 1) * k == a * k + d * k + k;
  }

  /** Euclidean division of `q * k + r` by `k` when `r < k`. */
  lemma ModOfMultiplePlus(q: nat, k: nat, r: nat)
    requires 0 <= r < k
    ensures (q * k + r) % k == r && (q * k + r) / k == q
  {
    var x := q * k + r;
    var q', r' := x / k, x % k;
    assert x == q' * k + r' && 0 <= r' < k;
    if q' > q {
      MulGap(q, q', k);
    } else if q' < q {
      MulGap(q', q, k);
    }
  }

  /** The decomposition is the only one with hours below 24, minutes below 60
      and fewer than 60 seconds left over. */
  lemma DecompositionIsUnique(seconds: nat, d: nat, h: nat, m: nat, rest: nat)
    requires h < 24 && m < 60 && rest < 60
    requires seconds == d * 86400 + h * 3600 + m * 60 + rest
    ensures DecomposeUptime(seconds) == Uptime(d, h, m)
  {
    var inDay := h * 3600 + m * 60 + rest;
    assert inDay < 86400;
    ModOfMultiplePlus(d, 86400, inDay);
    var inHour := m * 60 + rest;
    ModOfMultiplePlus(h, 3600, inHour);
    assert seconds == (d * 24 + h) * 3600 + inHour;
    ModOfMultiplePlus(d * 24 + h, 3600, inHour);
    ModOfMultiplePlus(m, 60, rest);
  }

  /** `formatUptime`: "<days>d <hours>h <minutes>m". Reading the leading
      run of digits back gives the days, and the text ends with the minutes'
      unit. */
  function FormatUptime(seconds: nat): (r: string)
    ensures 0 < |r| && r[|r| - 1] == 'm'
    ensures var n := DigitRunLength(r);
      && n < |r| && r[n] == 'd'
      && IsDigits(r[..n])
      && ParseNat(r[..n]) == DecomposeUptime(seconds).days
  {
    var u := DecomposeUptime(seconds);
    var rest := " " + NatToString(u.hours) + "h " + NatToString(u.minutes) + "m";
    LeadingNumeral(u.days, 'd', rest);
    assert NatToString(u.days) + "d " + NatToString(u.hours) + "h " + NatToString(u.minutes) + "m"
        == NatToString(u.days) + ['d'] + rest;
    NatToString(u.days) + "d " + NatToString(u.hours) + "h " + NatToString(u.minutes) + "m"
  }

  /** The rendered uptime reads back as the decomposition: the text before
      the "d " is the day count, and so on. */
  lemma FormatUptimeShape(seconds: nat)
    ensures var u := DecomposeUptime(seconds);
            var s := FormatUptime(seconds);
            var dl, hl := |NatToString(u.days)|, |NatToString(u.hours)|;
            && s[..dl] == NatToString(u.days)
            && s[dl..dl + 2] == "d "
            && s[dl + 2..dl + 2 + hl] == NatToString(u.hours)
            && s[dl + 2 + hl..dl + 4 + hl] == "h "
            && s[dl + 4 + hl..|s| - 1] == NatToString(u.minutes)
            && s[|s| - 1] == 'm'
  {
  }

  /** The rendering regrouped around its three separators. */
  lemma Regroup(d: string, h: string, m: string)
    ensures d + "d " + h + "h " + m + "m"
         == d + ['d'] + ([' '] + (h + ['h'] + ([' '] + (m + ['m'] + []))))
  {
  }

  /** The rendered uptime determines the days, hours and minutes. */
  lemma FormatUptimeInjective(a: nat, b: nat)
    requires FormatUptime(a) == FormatUptime(b)
    ensures DecomposeUptime(a) == DecomposeUptime(b)
  {
    var u, v := DecomposeUptime(a), DecomposeUptime(b);
    var tu := NatToString(u.minutes) + ['m'] + [];
    var tv := NatToString(v.minutes) + ['m'] + [];
    var hu := NatToString(u.hours) + ['h'] + ([' '] + tu);
    var hv := NatToString(v.hours) + ['h'] + ([' '] + tv);
    Regroup(NatToString(u.days), NatToString(u.hours), NatToString(u.minutes));
    Regroup(NatToString(v.days), NatToString(v.hours), NatToString(v.minutes));
    NumeralThenSeparator(u.days, v.days, 'd', [' '] + hu, [' '] + hv);
    assert hu == ([' '] + hu)[1..] == ([' '] + hv)[1..] == hv;
    NumeralThenSeparator(u.hours, v.hours, 'h', [' '] + tu, [' '] + tv);
    assert tu == ([' '] + tu)[1..] == ([' '] + tv)[1..] == tv;
    NumeralThenSeparator(u.minutes, v.minutes, 'm', [], []);
  }

  /** The counters of `StatusService`. */
  datatype StatusService = StatusService(startTime: nat, totalChecks: nat, servicesFound: nat)

  /** The constructor: both counters start at zero. */
  function NewStatusService(now: nat): (s: StatusService)
    ensures s.totalChecks == 0 && s.servicesFound == 0 && s.startTime == now
  {
    StatusService(now, 0, 0)
  }

  /** `incrementChecks`: one more completed check, nothing else changes. */
  function IncrementChecks(s: StatusService): (r: StatusService)
    ensures r.totalChecks == s.totalChecks + 1
    ensures r.servicesFound == s.servicesFound && r.startTime == s.startTime
  {
    s.(totalChecks := s.totalChecks + 1)
  }

  /** `incrementServicesFound`: one more service found, nothing else changes. */
  function IncrementServicesFound(s: StatusService): (r: StatusService)
    ensures r.servicesFound == s.servicesFound + 1
    ensures r.totalChecks == s.totalChecks && r.startTime == s.startTime
  {
    s.(servicesFound := s.servicesFound + 1)
  }

  datatype Increment = Check | ServiceFound

  function Apply(s: StatusService, op: Increment): StatusService {
    match op
    case Check => IncrementChecks(s)
    case ServiceFound => IncrementServicesFound(s)
  }

  function ApplyAll(s: StatusService, ops: seq<Increment>): StatusService
    decreases |ops|
  {
    if |ops| == 0 then s else ApplyAll(Apply(s, ops[0]), ops[1..])
  }

  function CountOf(ops: seq<Increment>, op: Increment): nat
    decreases |ops|
  {
    if |ops| == 0 then 0 else (if ops[0] == op then 1 else 0) + CountOf(ops[1..], op)
  }

  /** Each counter grows by exactly the number of its own increments; the start
      time never changes. */
  lemma {:induction false} CountersCountIncrements(s: StatusService, ops: seq<Increment>)
    ensures ApplyAll(s, ops).totalChecks == s.totalChecks + CountOf(ops, Check)
    ensures ApplyAll(s, ops).servicesFound == s.servicesFound + CountOf(ops, ServiceFound)
    ensures ApplyAll(s, ops).startTime == s.startTime
    decreases |ops|
  {
    if |ops| > 0 {
      CountersCountIncrements(Apply(s, ops[0]), ops[1..]);
    }
  }

  /** Counters never decrease. */
  lemma CountersAreMonotone(s: StatusService, ops: seq<Increment>)
    ensures ApplyAll(s, ops).totalChecks >= s.totalChecks
    ensures ApplyAll(s, ops).servicesFound >= s.servicesFound
  {
    CountersCountIncrements(s, ops);
  }
}

=== FILE: text.dfy ===
/** String helpers the source relies on: `String.prototype.includes`, and the
    decimal rendering and parsing of integers used by template literals,
    `Number.prototype.toString` and `parseInt`. */
module Text {

  /** `p` is a prefix of `s`. */
  predicate IsPrefix(p: string, s: string) {
    |p| <= |s| && s[..|p|] == p
  }

  /** `s.includes(sub)`: some position of `s` starts a copy of `sub`. The
      empty string is contained in every string, as in JavaScript. */
  predicate Contains(s: string, sub: string)
    decreases |s|
  {
    IsPrefix(sub, s) || (|s| > 0 && Contains(s[1..], sub))
  }

  /** `sub` occurs in `s` starting at position `i`. */
  predicate OccursAt(s: string, sub: string, i: int) {
    0 <= i && i + |sub| <= |s| && s[i..i + |sub|] == sub
  }

  /** `Contains` agrees with the positional definition of a substring. */
  lemma {:induction false} ContainsIffOccurs(s: string, sub: string)
    ensures Contains(s, sub) <==> exists i :: OccursAt(s, sub, i)
    decreases |s|
  {
    if IsPrefix(sub, s) {
      assert OccursAt(s, sub, 0);
    } else if |s| == 0 {
    } else {
      ContainsIffOccurs(s[1..], sub);
      if Contains(s[1..], sub) {
        var i :| OccursAt(s[1..], sub, i);
        assert s[i + 1..i + 1 + |sub|] == s[1..][i..i + |sub|];
        assert OccursAt(s, sub, i + 1);
      } else {
        forall i | OccursAt(s, sub, i)
          ensures false
        {
          if i > 0 {
            OccursShift(s, sub, i);
          }
        }
      }
    }
  }

  /** An occurrence past the first position is one in the tail. */
  lemma OccursShift(s: string, sub: string, i: int)
    requires i > 0 && OccursAt(s, sub, i)
    ensures OccursAt(s[1..], sub, i - 1)
  {
    var t := s[1..];
    assert i - 1 + |sub| <= |t|;
    assert t[i - 1..i - 1 + |sub|] == s[i..i + |sub|];
  }

  /** A string lacking one of `sub`'s characters does not contain `sub`. */
  lemma {:induction false} MissingCharNotContained(s: string, sub: string, k: int)
    requires 0 <= k < |sub| && sub[k] !in s
    ensures !Contains(s, sub)
    decreases |s|
  {
    if |sub| <= |s| {
      assert s[..|sub|][k] == s[k];
    }
    if |s| > 0 {
      assert sub[k] !in s[1..] by {
        forall x | x in s[1..] ensures x in s {
          var j :| 0 <= j < |s[1..]| && s[1..][j] == x;
          assert s[j + 1] == x;
        }
      }
      MissingCharNotContained(s[1..], sub, k);
    }
  }

  /** `s.includes(k)` for some `k` in `subs` (a chain of `||`). */
  predicate ContainsAny(s: string, subs: seq<string>) {
    exists k :: 0 <= k < |subs| && Contains(s, subs[k])
  }

  // ---------------------------------------------------------------------------
  // Decimal numerals

  predicate IsDigit(c: char) {
    '0' <= c <= '9'
  }

  /** A non-empty run of decimal digits. */
  predicate IsDigits(s: string) {
    |s| > 0 && forall i :: 0 <= i < |s| ==> IsDigit(s[i])
  }

  function DigitChar(d: nat): (c: char)
    requires d < 10
    ensures IsDigit(c)
  {
    "0123456789"[d]
  }

  function DigitValue(c: char): (d: nat)
    requires IsDigit(c)
    ensures d < 10
  {
    (c as int - '0' as int) as nat
  }

  lemma DigitRoundTrip(d: nat)
    requires d < 10
    ensures DigitValue(DigitChar(d)) == d
  {
    assert "0123456789"[d] as int == '0' as int + d;
  }

  /** The decimal numeral of `n` without leading zeros, as a template literal
      renders a non-negative integer. */
  function NatToString(n: nat): (s: string)
    ensures IsDigits(s)
    ensures |s| > 1 ==> s[0] != '0'
    decreases n
  {
    if n < 10 then [DigitChar(n)] else NatToString(n / 10) + [DigitChar(n % 10)]
  }

  /** `chatId.toString()` for an integer chat id: a minus sign for negative ids. */
  function IntToString(i: int): (s: string)
    ensures |s| > 0
    ensures i < 0 <==> s[0] == '-'
  {
    if i < 0 then "-" + NatToString(-i) else NatToString(i)
  }

  /** The value of a run of decimal digits (leading zeros allowed). */
  function ParseNat(s: string): nat
    requires IsDigits(s)
    decreases |s|
  {
    var last := DigitValue(s[|s| - 1]);
    if |s| == 1 then last else ParseNat(s[..|s| - 1]) * 10 + last
  }

  /** Parsing the rendered numeral gives the number back. */
  lemma {:induction false} ParseNatToString(n: nat)
    ensures ParseNat(NatToString(n)) == n
    decreases n
  {
    var s := NatToString(n);
    if n < 10 {
      DigitRoundTrip(n);
    } else {
      ParseNatToString(n / 10);
      DigitRoundTrip(n % 10);
      assert s[..|s| - 1] == NatToString(n / 10);
    }
  }

  /** Distinct naturals render differently. */
  lemma NatToStringInjective(a: nat, b: nat)
    requires NatToString(a) == NatToString(b)
    ensures a == b
  {
    ParseNatToString(a);
    ParseNatToString(b);
  }

  /** The length of the run of digits that starts `s`. */
  function DigitRunLength(s: string): nat
    decreases |s|
  {
    if |s| == 0 || !IsDigit(s[0]) then 0 else 1 + DigitRunLength(s[1..])
  }

  /** Digits followed by a non-digit: the run is exactly the digits. */
  lemma {:induction false} DigitRunBeforeSeparator(x: string, sep: char, rest: string)
    requires forall i :: 0 <= i < |x| ==> IsDigit(x[i])
    requires !IsDigit(sep)
    ensures DigitRunLength(x + [sep] + rest) == |x|
    decreases |x|
  {
    if |x| > 0 {
      assert (x + [sep] + rest)[1..] == x[1..] + [sep] + rest;
      DigitRunBeforeSeparator(x[1..], sep, rest);
    }
  }

  /** A numeral followed by a non-digit reads back from the front of the text. */
  lemma LeadingNumeral(n: nat, sep: char, rest: string)
    requires !IsDigit(sep)
    ensures var s, k := NatToString(n) + [sep] + rest, |NatToString(n)|;
      && DigitRunLength(s) == k && k < |s| && s[k] == sep
      && IsDigits(s[..k]) && ParseNat(s[..k]) == n
  {
    var x := NatToString(n);
    DigitRunBeforeSeparator(x, sep, rest);
    assert (x + [sep] + rest)[..|x|] == x;
    ParseNatToString(n);
  }

  /** A numeral ended by a non-digit separator can be read off unambiguously:
      equal texts have equal numbers and equal remainders. */
  lemma NumeralThenSeparator(a: nat, b: nat, sep: char, r1: string, r2: string)
    requires !IsDigit(sep)
    requires NatToString(a) + [sep] + r1 == NatToString(b) + [sep] + r2
    ensures a == b && r1 == r2
  {
    var x, y := NatToString(a), NatToString(b);
    var s := x + [sep] + r1;
    DigitRunBeforeSeparator(x, sep, r1);
    DigitRunBeforeSeparator(y, sep, r2);
    assert x == s[..|x|] == y;
    assert r1 == s[|x| + 1..] == r2;
    NatToStringInjective(a, b);
  }

  /** Distinct integers render differently, so comparing renderings compares ids. */
  lemma IntToStringInjective(i: int, j: int)
    requires IntToString(i) == IntToString(j)
    ensures i == j
  {
    var s := IntToString(i);
    if i < 0 {
      assert j < 0;
      var a, b := NatToString(-i), NatToString(-j);
      assert s == "-" + a && s == "-" + b;
      assert a == s[1..] == b;
      NatToStringInjective(-i, -j);
    } else {
      assert j >= 0;
      NatToStringInjective(i, j);
    }
  }
}

=== FILE: wrappers.dfy ===
/** Failure-carrying values used across the model: an optional value and a
    value-or-error result, standing in for JavaScript's `null`/`undefined`
    and for thrown exceptions. */
module Wrappers {

  datatype Option<+T> = None | Some(value: T)

  datatype Result<+R, +E> = Success(value: R) | Failure(error: E)
}
